=== FILE: README.md ===
# Chat membership engine — a Dafny model

This project models the chat controllers of the chat application's server
(`server/src/controller/chat-app/chat.controllers.ts`). Each HTTP handler is a
pure function of the store (users, chats and messages, in collection order).

The read-only handlers return what they send directly:

- `SearchAvailableUsers` returns the user summaries;
- `GetAllChats` returns the hydrated chats;
- `GetGroupChatDetails` returns the hydrated group chat or an `ApiError`.

Every handler that writes returns either an `ApiError` or a reply. A reply holds:

- the status;
- the store after the handler's writes;
- the hydrated chat sent back as the response body;
- the socket events emitted (the outbox);
- the local file paths whose removal was requested.

The shared aggregation (`chatCommonAggregation`) is the `Hydration` module:

- participants are resolved against the users collection, whose ids are
  unique in the store (MongoDB's `_id` index; `UniqueUserIds`) wherever a
  property depends on it;
- the six secret fields are projected away;
- the sender of the last message is resolved to a summary.

The message cascade run when a chat is deleted is the `Cascade` module. The
ordering of `getAllChats` is the `Recency` module. The `StoreInvariants` module
states the invariants every handler keeps. `ChatProperties` relates several
handler calls to one another and walks through a complete session.

The chat lookups `FindChat`, `FindGroup` and `FindPair` (the `findOne`
queries and the one-on-one `$match`) are each `FirstIndex` with a
predicate, so they are covered by its contract. The two `$project`
stages, `Public` and `Summarize`, are covered by the contracts of
`ParticipantsOf`, `SenderOf` and the `IgnoresSecrets` lemmas.

Modules, in dependency order:

- `Wrappers`
- `Errors`
- `Sequences`: `$match` as `Filter`, `$pull` as `Pull`, the JavaScript
  `Set` de-duplication as `Dedup`
- `Models`
- `Hydration`
- `Events`
- `Cascade`
- `Recency`
- `ChatControllers`
- `StoreInvariants`
- `ChatProperties`

Where the code and its description differ, the model follows the code:

- the admin of a group may leave it, or be removed from it, and keeps the
  admin field;
- a rename notifies every participant, the admin included;
- leaving a group emits no event;
- deleting a one-on-one chat checks neither that the caller is a participant
  nor that the chat is not a group;
- a deletion removes the chat before its messages;
- a failed admin check answers 404.

## Model

| member | source | states |
|---|---|---|
| Sequences.Filter | server/src/controller/chat-app/chat.controllers.ts:112-119 | a `$match` keeps exactly the elements satisfying the predicate and never more than it was given |
| Sequences.FilterOfFilter | server/src/controller/chat-app/chat.controllers.ts:98-100 | a narrower second filter over a filtered sequence equals that filter alone, so deleting one chat's messages leaves another chat's messages as they were |
| Sequences.FilterMultiset | server/src/controller/chat-app/chat.controllers.ts:80-100 | a filter keeps every copy of a value that passes and no copy of one that fails |
| Sequences.FilterPartition | server/src/controller/chat-app/chat.controllers.ts:80-100 | the messages a `deleteMany` keeps and the ones the `find` before it selected are together a permutation of the collection |
| Sequences.Pull | server/src/controller/chat-app/chat.controllers.ts:503-511 | `$pull` removes every occurrence of the value and leaves the count of every other value unchanged |
| Sequences.PullUndoesPush | server/src/controller/chat-app/chat.controllers.ts:558-566 | pulling a value that was absent before a `$push` of it gives back the original array |
| Sequences.PullConcat | server/src/controller/chat-app/chat.controllers.ts:616-624 | `$pull` works element by element: the survivors keep their relative order |
| Sequences.PullAbsent | server/src/controller/chat-app/chat.controllers.ts:616-624 | pulling a value that is not there changes nothing |
| Sequences.PullNoDup | server/src/controller/chat-app/chat.controllers.ts:616-624 | `$pull` never introduces a duplicate participant |
| Sequences.PullElements | server/src/controller/chat-app/chat.controllers.ts:503-511 | after a `$pull` the set of values is the old one without the pulled value |
| Sequences.Dedup | server/src/controller/chat-app/chat.controllers.ts:240 | the `Set` spread has no duplicates, holds exactly the values of its input, and lists them in the order of their first occurrence |
| Sequences.DedupAppendFresh | server/src/controller/chat-app/chat.controllers.ts:240 | de-duplicating `participants` plus a fresh creator puts the creator last |
| Sequences.DistinctCount | server/src/controller/chat-app/chat.controllers.ts:242 | a duplicate-free array has as many elements as it has distinct values |
| Sequences.DedupCount | server/src/controller/chat-app/chat.controllers.ts:242-249 | the length `members.length` tests is the number of distinct ids |
| Sequences.FirstIndex | server/src/controller/chat-app/chat.controllers.ts:154-179 | a lookup answers the first index whose element matches, or none when no element matches |
| Models.FindUser | server/src/controller/chat-app/chat.controllers.ts:145-148 | `User.findById` finds nothing exactly when no registered user has the id |
| Models.FindMessage | server/src/controller/chat-app/chat.controllers.ts:37-43 | the last-message `$lookup` finds a stored message with the id, and finds none exactly when no stored message has it |
| Models.NextChatId | server/src/controller/chat-app/chat.controllers.ts:182-186 | the id a created chat receives is carried by no chat already stored |
| Hydration.ParticipantsOf | server/src/controller/chat-app/chat.controllers.ts:17-33 | the participants `$lookup` yields exactly the registered users whose id the chat lists, without their secrets |
| Hydration.ParticipantIds | server/src/controller/chat-app/chat.controllers.ts:17-33 | the ids of the hydrated participants are the listed ids that belong to registered users |
| Hydration.ParticipantsOnce | server/src/controller/chat-app/chat.controllers.ts:17-33 | with unique user ids, the participants `$lookup` shows each listed, registered user exactly once, however often the chat lists the id, and nobody else |
| Hydration.HydratedOnce | server/src/controller/chat-app/chat.controllers.ts:17-33 | the same for every id at once, for any chat and store |
| Hydration.SenderOf | server/src/controller/chat-app/chat.controllers.ts:44-56 | the sender `$lookup` with `$first` yields the summary of a user with the sender's id (unique by `_id`), and none exactly when no user has it |
| Hydration.LastMessageOf | server/src/controller/chat-app/chat.controllers.ts:37-70 | the last-message `$lookup` with `$first` yields the stored message with that id and its resolved sender, or none |
| Hydration.Hydrate | server/src/controller/chat-app/chat.controllers.ts:14-74 | the hydrated chat keeps the chat's id, name, group flag, admin and `updatedAt`; it lists, in public form, exactly those of the chat's participants that are registered users; any last message it carries is the chat's own, and it carries none exactly when the chat has none or no stored message has that id |
| Hydration.ParticipantsIgnoreSecrets | server/src/controller/chat-app/chat.controllers.ts:22-32 | the hydrated participants do not depend on any of the six projected-away fields |
| Hydration.SenderIgnoresSecrets | server/src/controller/chat-app/chat.controllers.ts:49-56 | the sender summary does not depend on any secret field of any user |
| Hydration.HydrateIgnoresSecrets | server/src/controller/chat-app/chat.controllers.ts:14-74 | two stores that differ only in users' secrets hydrate every chat identically, so no reply or event can reveal a secret |
| Events.FanOut | server/src/controller/chat-app/chat.controllers.ts:205-215 | events go to exactly the hydrated participants other than the skipped one, each carrying the given kind and payload; a user gets as many events as the participant list shows them, and none if skipped |
| Cascade.AttachmentsOf | server/src/controller/chat-app/chat.controllers.ts:84-89 | the concatenated attachments are exactly those carried by some message |
| Cascade.LocalPaths | server/src/controller/chat-app/chat.controllers.ts:91-95 | one removal request per attachment, in attachment order, for its `localPath` |
| Cascade.DeleteCascadeChatMessages | server/src/controller/chat-app/chat.controllers.ts:78-101 | exactly the chat's messages go, a path is unlinked exactly when a message of the chat stores a file there, and other chats' messages stay as they were |
| Cascade.CascadeIdempotent | server/src/controller/chat-app/chat.controllers.ts:78-101 | a second cascade on the same chat deletes nothing and unlinks nothing |
| Cascade.CascadeOfCleared | server/src/controller/chat-app/chat.controllers.ts:78-101 | a cascade over messages none of which belongs to the chat deletes nothing and requests no file removal |
| Recency.Insert | server/src/controller/chat-app/chat.controllers.ts:656-660 | inserting into a newest-first list keeps it newest first and adds exactly the one chat |
| Recency.SortByRecency | server/src/controller/chat-app/chat.controllers.ts:656-660 | `$sort: {updatedAt: -1}` yields a newest-first permutation of its input |
| ChatControllers.Group | server/src/controller/chat-app/chat.controllers.ts:487-490 | the group lookup finds nothing exactly when no group chat has the id, and otherwise a stored group chat with that id |
| ChatControllers.DeleteChatAndMessages | server/src/controller/chat-app/chat.controllers.ts:416-418 | the chat at the index is removed, then its messages and their files, leaving users and other chats' messages untouched |
| ChatControllers.SearchAvailableUsers | server/src/controller/chat-app/chat.controllers.ts:103-133 | every user except the caller is listed, as an id/avatar/username/email summary, and nothing else is |
| ChatControllers.CreateOrGetAOneOnOneChat | server/src/controller/chat-app/chat.controllers.ts:135-221 | 404 for an unknown receiver, 400 for oneself; an existing pair chat is returned with status 200 and no change and no event; otherwise status 201 and exactly one chat is appended, with a fresh id, holding the caller and the receiver, and only the receiver is told |
| ChatControllers.NewPairChat | server/src/controller/chat-app/chat.controllers.ts:182-215 | the created one-on-one chat has a fresh id, the fixed name, the two users with the caller as admin, and only the receiver hears of it |
| ChatControllers.CreateAGroupChat | server/src/controller/chat-app/chat.controllers.ts:223-290 | 400 if the creator is listed, 400 exactly when fewer than two distinct others are given; otherwise status 201 and one group of at least three whose members are the invitees in first-occurrence order without repeats followed by the creator, who is admin, and every other registered member is told |
| ChatControllers.GetGroupChatDetails | server/src/controller/chat-app/chat.controllers.ts:292-315 | 404 exactly when no group chat has the id; otherwise the hydrated group chat with that id |
| ChatControllers.RenameGroupChat | server/src/controller/chat-app/chat.controllers.ts:317-383 | 404 for a missing group or a caller who is not its admin; otherwise only the name changes, and every registered participant, the admin included, is told |
| ChatControllers.DeleteGroupChat | server/src/controller/chat-app/chat.controllers.ts:385-435 | 404 for a missing group or a non-admin caller; otherwise the chat, its messages and their files go, and every registered participant but the caller is told, with the chat as it was |
| ChatControllers.OtherParticipant | server/src/controller/chat-app/chat.controllers.ts:466-468 | the participant found is the first hydrated participant other than the caller, and none is found exactly when no hydrated participant other than the caller exists |
| ChatControllers.DeleteOneOnOneChat | server/src/controller/chat-app/chat.controllers.ts:437-481 | 404 exactly when no chat has the id; otherwise the chat, its messages and their files go, and a single event goes to the first hydrated participant other than the caller |
| ChatControllers.LeaveGroupChat | server/src/controller/chat-app/chat.controllers.ts:483-531 | 404 for a missing group, 400 when the caller is not a member; otherwise every occurrence of the caller is pulled, the other participants keep their order and counts, and no event is emitted |
| ChatControllers.AddNewParticipantInGroupChat | server/src/controller/chat-app/chat.controllers.ts:533-589 | 404 for a missing group or a non-admin caller, 409 for a member; otherwise the participant is pushed last and alone is told |
| ChatControllers.RemoveParticipantFromGroupChat | server/src/controller/chat-app/chat.controllers.ts:591-647 | 404 for a missing group or a non-admin caller, 400 for a non-member; otherwise every occurrence of the participant is pulled, the others keep their order and counts, and the removed participant alone is told |
| ChatControllers.Views | server/src/controller/chat-app/chat.controllers.ts:661 | the aggregation hydrates each chat in place, keeping the order |
| ChatControllers.ViewsCover | server/src/controller/chat-app/chat.controllers.ts:656-661 | hydrating a permutation of the chats yields the hydration of each of them and of nothing else |
| ChatControllers.GetAllChats | server/src/controller/chat-app/chat.controllers.ts:649-669 | exactly the chats the caller belongs to, one view each, most recently updated first |
| Errors.StatusCode | server/src/controller/chat-app/chat.controllers.ts:147-613 | 404 exactly for the not-found errors and the failed admin check, 409 exactly for a participant added twice, 400 exactly for the other rejected requests |
| StoreInvariants.AtMostOneChatPerPair | server/src/controller/chat-app/chat.controllers.ts:154-179 | under the invariant, at most one one-on-one chat joins two distinct users |
| StoreInvariants.RemovedIdIsGone | server/src/controller/chat-app/chat.controllers.ts:416 | with unique ids, deleting a chat by id leaves no chat with that id |
| StoreInvariants.InvAppend | server/src/controller/chat-app/chat.controllers.ts:182-186 | appending a chat with a fresh id and no repeated participant, and for a pair chat one joining an unconnected pair, keeps the invariant |
| StoreInvariants.InvReplaceGroup | server/src/controller/chat-app/chat.controllers.ts:342-350 | updating a group chat in place under the same id, with no repeated participant, keeps the invariant |
| StoreInvariants.InvRemove | server/src/controller/chat-app/chat.controllers.ts:462 | removing a chat keeps the invariant |
| StoreInvariants.CreateOrGetKeepsInv | server/src/controller/chat-app/chat.controllers.ts:154-186 | get-or-create keeps chat ids unique, participants unrepeated and one chat per pair, because it looks the pair up before creating |
| StoreInvariants.NewPairChatKeepsInv | server/src/controller/chat-app/chat.controllers.ts:182-186 | creating the chat of two distinct users who have none keeps the invariant |
| StoreInvariants.CreateGroupKeepsInv | server/src/controller/chat-app/chat.controllers.ts:252-257 | group creation keeps the invariant: the `Set` leaves no repeated member |
| StoreInvariants.RenameKeepsInv | server/src/controller/chat-app/chat.controllers.ts:342-350 | renaming keeps the invariant |
| StoreInvariants.LeaveKeepsInv | server/src/controller/chat-app/chat.controllers.ts:503-511 | leaving keeps the invariant: `$pull` repeats nobody |
| StoreInvariants.AddKeepsInv | server/src/controller/chat-app/chat.controllers.ts:554-566 | adding a participant keeps the invariant: the membership check before `$push` repeats nobody |
| StoreInvariants.RemoveKeepsInv | server/src/controller/chat-app/chat.controllers.ts:616-624 | removing a participant keeps the invariant: `$pull` repeats nobody |
| StoreInvariants.DeleteGroupKeepsInv | server/src/controller/chat-app/chat.controllers.ts:416-418 | deleting a group keeps the invariant |
| StoreInvariants.DeleteOneOnOneKeepsInv | server/src/controller/chat-app/chat.controllers.ts:462-464 | deleting a one-on-one chat keeps the invariant |
| ChatProperties.FindGroupAfterReplace | server/src/controller/chat-app/chat.controllers.ts:342-350 | after an in-place update of a group, looking up its id finds the same index |
| ChatProperties.FindGroupAppended | server/src/controller/chat-app/chat.controllers.ts:252-269 | a group just created under a fresh id is what a lookup of that id finds |
| ChatProperties.FindPairAppended | server/src/controller/chat-app/chat.controllers.ts:154-186 | once a pair chat is created, the pair lookup finds it |
| ChatProperties.OneOnOneIdempotent | server/src/controller/chat-app/chat.controllers.ts:135-221 | asking twice for the same pair's chat returns the same chat; the second call changes nothing and notifies nobody |
| ChatProperties.ExistingOneOnOneIsUnique | server/src/controller/chat-app/chat.controllers.ts:173-179 | under the invariant, the chat returned for an existing pair is the pair's only one-on-one chat |
| ChatProperties.CreatedGroupIsFetchable | server/src/controller/chat-app/chat.controllers.ts:292-315 | the details query for a just-created group returns the body the creation returned |
| ChatProperties.RenameLastWriteWins | server/src/controller/chat-app/chat.controllers.ts:342-350 | of two renames by the admin, the second wins |
| ChatProperties.RenameBackRestores | server/src/controller/chat-app/chat.controllers.ts:342-350 | renaming back to the old name restores the store |
| ChatProperties.AddThenRemoveRestores | server/src/controller/chat-app/chat.controllers.ts:558-566 | removing the participant just added restores the store |
| ChatProperties.RemoveTwiceFails | server/src/controller/chat-app/chat.controllers.ts:610-614 | a participant pulled out of a group cannot be removed again: the second call answers 400 |
| ChatProperties.LeaveTwiceFails | server/src/controller/chat-app/chat.controllers.ts:497-501 | leaving pulls every occurrence of the caller, so a second leave answers 400 |
| ChatProperties.AdminKeepsRightsAfterLeaving | server/src/controller/chat-app/chat.controllers.ts:483-531 | an admin who leaves is no longer a participant yet can still rename the group |
| ChatProperties.NoMessagesLeft | server/src/controller/chat-app/chat.controllers.ts:98-100 | after the cascade, the chat has no messages |
| ChatProperties.DeletedGroupIsGone | server/src/controller/chat-app/chat.controllers.ts:416-418 | under the invariant, after a group is deleted no chat has its id, its messages are gone, and the details query answers 404 |
| ChatProperties.DeletedOneOnOneIsGone | server/src/controller/chat-app/chat.controllers.ts:462-464 | the same for a deleted one-on-one chat |
| ChatProperties.DeletedOneOnOneLeavesNoChat | server/src/controller/chat-app/chat.controllers.ts:462 | under the invariant, no chat carries the id of a deleted one-on-one chat |
| ChatProperties.DeletedOneOnOneLeavesNoMessage | server/src/controller/chat-app/chat.controllers.ts:464 | no message of a deleted one-on-one chat is left, and a second cascade deletes nothing |
| ChatProperties.FailedAdminCheckIs404 | server/src/controller/chat-app/chat.controllers.ts:337-340 | a caller who is not the group's admin gets `NotAdmin` with status 404 from rename, and likewise from delete, add and remove (lines 413, 548, 606) |
| ChatProperties.CreateOrGetNotifiesOnce | server/src/controller/chat-app/chat.controllers.ts:205-215 | with unique user ids, creating a pair chat sends the receiver exactly one event and nobody else any; returning an existing chat sends none |
| ChatProperties.NewPairChatNotifiesOnce | server/src/controller/chat-app/chat.controllers.ts:205-215 | with unique user ids, the creation branch sends a registered receiver exactly one event and nobody else, the caller included, any |
| ChatProperties.CreateGroupNotifiesOnce | server/src/controller/chat-app/chat.controllers.ts:276-285 | with unique user ids, group creation sends each registered invitee exactly one event and nobody else any |
| ChatProperties.RenameNotifiesOnce | server/src/controller/chat-app/chat.controllers.ts:368-376 | with unique user ids, a rename sends each registered participant, the admin included, exactly one event and nobody else any |
| ChatProperties.DeleteGroupNotifiesOnce | server/src/controller/chat-app/chat.controllers.ts:421-430 | with unique user ids, deleting a group sends each registered participant but the admin exactly one event and nobody else any |
| ChatProperties.TripCreate | server/src/controller/chat-app/chat.controllers.ts:223-290 | user 1 creates "Trip" with users 2 and 3; each of them gets one event, and the store holds one group of the three with user 1 as admin |
| ChatProperties.TripCreateShape | server/src/controller/chat-app/chat.controllers.ts:233-257 | user 1 inviting users 2 and 3, in any order and with repeats, into a store with no chat gets one group of the three, administered by user 1, and only users 2 and 3 are told |
| ChatProperties.TripCreateAccepted | server/src/controller/chat-app/chat.controllers.ts:233-285 | that invitation is accepted, leaves the users alone and tells users 2 and 3 only |
| ChatProperties.TripCreateGroup | server/src/controller/chat-app/chat.controllers.ts:252-257 | that invitation leaves one group of users 1, 2 and 3, administered by user 1 |
| ChatProperties.TripCreateNotifies | server/src/controller/chat-app/chat.controllers.ts:276-285 | in that creation, users 2 and 3 each get exactly one event |
| ChatProperties.TripRename | server/src/controller/chat-app/chat.controllers.ts:317-383 | renaming it to "Trip 2024" sends each of the three users exactly one event, carrying the new name |
| ChatProperties.TripRemove | server/src/controller/chat-app/chat.controllers.ts:591-647 | removing user 3 tells user 3 alone and leaves users 1 and 2 |
| ChatProperties.TripRemoveAccepted | server/src/controller/chat-app/chat.controllers.ts:604-642 | the admin removing user 3 is accepted, leaves the users alone and tells user 3 alone |
| ChatProperties.TripRemoveGroup | server/src/controller/chat-app/chat.controllers.ts:616-624 | that removal leaves the one group with users 1 and 2 |
| ChatProperties.TripDelete | server/src/controller/chat-app/chat.controllers.ts:385-435 | deleting the group after a message with an attachment removes the chat, the message and the file, and sends user 2 exactly one event |
| ChatProperties.TripDeleteChats | server/src/controller/chat-app/chat.controllers.ts:416 | user 1 deleting the only group, of users 1 and 2, leaves no chat and tells user 2 alone |
| ChatProperties.TripDeleteMessages | server/src/controller/chat-app/chat.controllers.ts:98-100 | when that chat holds the only message, no message is left |
| ChatProperties.TripDeleteFiles | server/src/controller/chat-app/chat.controllers.ts:86-95 | that deletion requests removal of exactly the message's attachment paths, in order |
| ChatProperties.TripDeleteNotifies | server/src/controller/chat-app/chat.controllers.ts:421-430 | that deletion sends user 2 exactly one event |
| ChatProperties.TripScenario | server/src/controller/chat-app/chat.controllers.ts:223-647 | the whole session of create, rename, remove and delete succeeds at every step and leaves no chat and the one file unlinked |

## Left out

- The authentication and user controllers, the routes, the database
  connection and application setup are not modelled: they are not part of
  the membership engine.
- File removal (`removeLocalFile` in `server/src/utils/helpers.ts`) is reduced
  to the list of paths requested; file-system effects and failures are not
  modelled.
- Socket.IO delivery is reduced to the outbox. The socket module and the event
  name constants are not part of this model, so events carry a kind, not
  their wire names.
- MongoDB specifics are not modelled: `ObjectId` parsing, the aggregation
  engine, concurrent requests and the lack of transactions. Handlers are
  atomic transitions of one store.
- The `!req.user` early return and the 404 "User not found" for a missing
  caller are not modelled: the caller is always an authenticated user id.
- The 500 "Internal server error" branches are not modelled. They fire only
  when re-reading a chat that was just written fails, which cannot happen in
  an atomic store.
- `$lookup` output order is taken to be users-collection order, and
  `$sort` leaves the order of chats with equal `updatedAt` unspecified; the
  model promises only the ordering and the permutation.
- The chat and message schema files are not part of this model. A created
  one-on-one chat is taken to have `isGroupChat` false, its schema default.
- ChatControllers.RenameGroupChat: does not bump `updatedAt`, because the
  timestamps option of the chat schema is not part of this model; the same
  holds for the other in-place updates, and `createdAt` is not modelled.
- ChatControllers.DeleteOneOnOneChat: requires that the chat has a hydrated
  participant other than the caller, because the handler dereferences that
  participant unchecked and fails with an unhandled error otherwise.
- Handlers update or delete the chat at the index their lookup found, where
  the code re-selects by `_id` alone (`findByIdAndUpdate`,
  `findByIdAndDelete`). The two agree when chat ids are unique, which
  `StoreInvariants.UniqueChatIds` states and every handler keeps; the
  handlers themselves do not require it.
- New chat ids are modelled as one more than the largest stored id rather
  than an `ObjectId`; only their freshness is used.
- `ApiResponse` wrapping and the response messages are not modelled; a reply
  carries the status and the body.

=== FILE: cascade.dfy ===
/** `deleteCascadeChatMessages`: the messages of a chat are found, the local file
    of every attachment they carry is requested for removal, and the messages are
    deleted. File removal is reduced to the list of paths requested. */
module Cascade {
  import opened Sequences
  import opened Models

  /** What a cascade leaves behind: the surviving messages and the local paths
      requested for unlinking, in request order. */
  datatype Purge = Purge(kept: seq<Message>, unlinked: seq<Path>)

  /** `[].concat(...messages.map(m => m.attachments))`. */
  function AttachmentsOf(messages: seq<Message>): (r: seq<LocalFile>)
    ensures forall a :: a in r <==> exists m :: m in messages && a in m.attachments
  {
    if |messages| == 0 then []
    else
      var rest := AttachmentsOf(messages[1..]);
      assert forall m :: m in messages <==> m == messages[0] || m in messages[1..];
      messages[0].attachments + rest
  }

  /** The `localPath` of each attachment, in order. */
  function LocalPaths(files: seq<LocalFile>): (r: seq<Path>)
    ensures |r| == |files|
    ensures forall k :: 0 <= k < |r| ==> r[k] == files[k].localPath
  {
    if |files| == 0 then [] else [files[0].localPath] + LocalPaths(files[1..])
  }

  /** A message of chat `chat` carries an attachment stored at `path`. */
  ghost predicate StoredFor(messages: seq<Message>, chat: ChatId, path: Path)
  {
    exists m, a :: m in messages && m.chat == chat && a in m.attachments && a.localPath == path
  }

  /** Deletes the messages of chat `chatId` and requests removal of every file
      they carry; other chats' messages survive in their order. */
  function DeleteCascadeChatMessages(messages: seq<Message>, chatId: ChatId): (r: Purge)
    ensures forall m :: m in r.kept <==> m in messages && m.chat != chatId
    ensures forall p :: p in r.unlinked <==> StoredFor(messages, chatId, p)
    ensures forall c :: c != chatId ==> MessagesOf(r.kept, c) == MessagesOf(messages, c)
  {
    var doomed := MessagesOf(messages, chatId);
    var kept := Filter(messages, (m: Message) => m.chat != chatId);
    var files := AttachmentsOf(doomed);
    var paths := LocalPaths(files);
    forall p | p in paths
      ensures StoredFor(messages, chatId, p)
    {
      var k :| 0 <= k < |paths| && paths[k] == p;
      assert files[k] in files;
    }
    forall p | StoredFor(messages, chatId, p)
      ensures p in paths
    {
      var m, a :| m in messages && m.chat == chatId && a in m.attachments && a.localPath == p;
      assert m in doomed;
      assert a in files;
      var k :| 0 <= k < |files| && files[k] == a;
      assert paths[k] == p;
    }
    forall c | c != chatId
      ensures MessagesOf(kept, c) == MessagesOf(messages, c)
    {
      FilterOfFilter(messages, (m: Message) => m.chat != chatId, (m: Message) => m.chat == c);
    }
    Purge(kept, paths)
  }

  /** Re-running the cascade on a chat whose messages are gone deletes nothing
      and requests no file removal. */
  /** A cascade over messages none of which belongs to the chat deletes
      nothing and unlinks nothing. */
  lemma CascadeOfCleared(messages: seq<Message>, chatId: ChatId)
    requires forall m :: m in messages ==> m.chat != chatId
    ensures DeleteCascadeChatMessages(messages, chatId) == Purge(messages, [])
  {
    assert forall k :: 0 <= k < |messages| ==> messages[k] in messages;
    FilterKeepsAll(messages, (m: Message) => m.chat != chatId);
  }

  lemma CascadeIdempotent(messages: seq<Message>, chatId: ChatId)
    ensures var r := DeleteCascadeChatMessages(messages, chatId);
            DeleteCascadeChatMessages(r.kept, chatId) == Purge(r.kept, [])
  {
    var r := DeleteCascadeChatMessages(messages, chatId);
    var again := DeleteCascadeChatMessages(r.kept, chatId);
    assert forall k :: 0 <= k < |r.kept| ==> r.kept[k] in r.kept;
    FilterKeepsAll(r.kept, (m: Message) => m.chat != chatId);
  }
}

=== FILE: chat_controllers.dfy ===
/** The chat controller's handlers as pure transitions. Each handler takes the
    store, the authenticated user's id and the request's arguments, and returns
    either the error it throws or a reply: the response status, the new store,
    the response body, the socket events it emits and the local files it asks
    to unlink. A thrown error leaves the store as it was. */
module ChatControllers {
  import opened Wrappers
  import opened Sequences
  import opened Errors
  import opened Models
  import opened Hydration
  import opened Events
  import opened Cascade
  import opened Recency

  /** A response body: a hydrated chat, or `{}` after a deletion. */
  datatype Body = ChatBody(chat: ChatView) | EmptyBody

  datatype Reply = Reply(status: nat, store: Store, body: Body, outbox: seq<Event>, unlinked: seq<Path>)

  type Response = Result<Reply, ApiError>

  /** Some group chat carries this id. */
  predicate HasGroup(chats: seq<Chat>, id: ChatId)
  {
    exists c :: c in chats && c.id == id && c.isGroupChat
  }

  /** The group chat `findOne({_id, isGroupChat: true})` returns. */
  function Group(s: Store, id: ChatId): (r: Option<Chat>)
    ensures r.None? <==> !HasGroup(s.chats, id)
    ensures r.Some? ==> r.value in s.chats && r.value.id == id && r.value.isGroupChat
  {
    match FindGroup(s.chats, id)
    case None =>
      assert forall c :: c in s.chats ==> !(c.id == id && c.isGroupChat) by {
        forall c | c in s.chats ensures !(c.id == id && c.isGroupChat) {
          var k :| 0 <= k < |s.chats| && s.chats[k] == c;
        }
      }
      None
    case Some(i) => Some(s.chats[i])
  }

  /** The store after `Chat.findByIdAndUpdate` replaced the chat at index `i`. */
  function ReplaceChat(s: Store, i: nat, c: Chat): Store
    requires i < |s.chats|
  {
    s.(chats := s.chats[i := c])
  }

  /** Only the chat at index `i` differs between the two stores. */
  predicate OnlyChatChanged(s: Store, t: Store, i: nat)
  {
    && t.users == s.users
    && t.messages == s.messages
    && |t.chats| == |s.chats|
    && forall j :: 0 <= j < |s.chats| && j != i ==> t.chats[j] == s.chats[j]
  }

  /** `Chat.findByIdAndDelete` followed by `deleteCascadeChatMessages`: the chat
      record goes first, then its messages; the store after both steps and the
      paths requested for unlinking. */
  function DeleteChatAndMessages(s: Store, i: nat, chatId: ChatId): (r: (Store, seq<Path>))
    requires i < |s.chats|
    ensures r.0.users == s.users
    ensures r.0.chats == s.chats[..i] + s.chats[i + 1..]
    ensures forall m :: m in r.0.messages <==> m in s.messages && m.chat != chatId
    ensures forall c :: c != chatId ==> MessagesOf(r.0.messages, c) == MessagesOf(s.messages, c)
    ensures forall p :: p in r.1 <==> StoredFor(s.messages, chatId, p)
  {
    var withoutChat := s.(chats := s.chats[..i] + s.chats[i + 1..]);
    var purge := DeleteCascadeChatMessages(withoutChat.messages, chatId);
    (withoutChat.(messages := purge.kept), purge.unlinked)
  }

  // ---------------------------------------------------------------------------
  // searchAvailableUsers

  /** Every user except the caller, reduced to a contact card, in collection
      order. */
  function SearchAvailableUsers(users: seq<User>, actor: UserId): (r: seq<Summary>)
    ensures |r| == |Filter(users, (u: User) => u.id != actor)|
    ensures forall u :: u in users && u.id != actor ==> Summarize(u) in r
    ensures forall v :: v in r ==> v.id != actor && exists u :: u in users && v == Summarize(u)
  {
    if |users| == 0 then []
    else
      var rest := SearchAvailableUsers(users[1..], actor);
      assert forall u :: u in users ==> u == users[0] || u in users[1..];
      (if users[0].id != actor then [Summarize(users[0])] else []) + rest
  }

  // ---------------------------------------------------------------------------
  // createOrGetAOneOnOneChat

  /** Returns the existing one-on-one chat between the caller and the receiver,
      or creates it and tells the receiver. */
  function CreateOrGetAOneOnOneChat(s: Store, actor: UserId, receiverId: UserId, now: int): (r: Response)
    ensures receiverId !in UserIds(s.users) ==> r == Err(ReceiverNotFound)
    ensures receiverId in UserIds(s.users) && receiverId == actor ==> r == Err(SelfChat)
    ensures r.Ok? <==> receiverId in UserIds(s.users) && receiverId != actor
    // an existing chat is returned untouched, nobody is notified
    ensures r.Ok? && FindPair(s.chats, actor, receiverId).Some? ==>
              && r.value.status == 200
              && r.value.store == s
              && r.value.outbox == []
              && r.value.unlinked == []
              && r.value.body.ChatBody?
              && var c := s.chats[FindPair(s.chats, actor, receiverId).value];
                 Connects(c, actor, receiverId) && r.value.body.chat == Hydrate(s, c)
    // otherwise exactly one chat is added and only the receiver hears of it
    ensures r.Ok? && FindPair(s.chats, actor, receiverId).None? ==>
              && r.value.status == 201
              && r.value.store.users == s.users
              && r.value.store.messages == s.messages
              && |r.value.store.chats| == |s.chats| + 1
              && r.value.store.chats[..|s.chats|] == s.chats
              && r.value.unlinked == []
              && var c := r.value.store.chats[|s.chats|];
                 && c.id !in ChatIds(s.chats)
                 && c.name == OneOnOneChatName
                 && !c.isGroupChat
                 && c.participants == [actor, receiverId]
                 && c.admin == actor
                 && c.lastMessage.None?
                 && c.updatedAt == now
                 && r.value.body == ChatBody(Hydrate(r.value.store, c))
                 && Recipients(r.value.outbox) == {receiverId}
                 && (forall e :: e in r.value.outbox ==> e.kind == NewChat && e.payload == r.value.body.chat)
  {
    if FindUser(s.users, receiverId).None? then Err(ReceiverNotFound)
    else if receiverId == actor then Err(SelfChat)
    else
      match FindPair(s.chats, actor, receiverId)
      case Some(i) => Ok(Reply(200, s, ChatBody(Hydrate(s, s.chats[i])), [], []))
      case None =>
        assert {receiverId} * UserIds(s.users) == {receiverId};
        Ok(NewPairChat(s, actor, receiverId, now))
  }

  /** The creation branch of `CreateOrGetAOneOnOneChat`: appends the pair's chat
      and tells the receiver, if registered. */
  function NewPairChat(s: Store, actor: UserId, receiverId: UserId, now: int): (r: Reply)
    requires actor != receiverId
    ensures r.status == 201
    ensures r.store.users == s.users && r.store.messages == s.messages
    ensures |r.store.chats| == |s.chats| + 1 && r.store.chats[..|s.chats|] == s.chats
    ensures r.unlinked == []
    ensures var c := r.store.chats[|s.chats|];
            && c.id !in ChatIds(s.chats)
            && c.name == OneOnOneChatName
            && !c.isGroupChat
            && c.participants == [actor, receiverId]
            && c.admin == actor
            && c.lastMessage.None?
            && c.updatedAt == now
            && r.body == ChatBody(Hydrate(r.store, c))
            && Recipients(r.outbox) == {receiverId} * UserIds(s.users)
            && (forall e :: e in r.outbox ==> e.kind == NewChat && e.payload == r.body.chat)
  {
    var c := Chat(NextChatId(s.chats), OneOnOneChatName, false, [actor, receiverId], actor, None, now);
    var t := s.(chats := s.chats + [c]);
    var v := Hydrate(t, c);
    assert Elements(c.participants) == {actor, receiverId};
    Reply(201, t, ChatBody(v), FanOut(v.participants, Some(actor), NewChat, v), [])
  }

  // ---------------------------------------------------------------------------
  // createAGroupChat

  /** Creates a group chat of the given participants plus the caller, who becomes
      its admin, and tells every other member. */
  function CreateAGroupChat(s: Store, actor: UserId, name: string, participants: seq<UserId>, now: int): (r: Response)
    ensures actor in participants ==> r == Err(CreatorInParticipants)
    ensures actor !in participants ==> (r == Err(TooFewMembers) <==> |Elements(participants)| < 2)
    ensures r.Ok? <==> actor !in participants && |Elements(participants)| >= 2
    ensures r.Ok? ==>
              && r.value.status == 201
              && r.value.store.users == s.users
              && r.value.store.messages == s.messages
              && |r.value.store.chats| == |s.chats| + 1
              && r.value.store.chats[..|s.chats|] == s.chats
              && r.value.unlinked == []
              && var c := r.value.store.chats[|s.chats|];
                 && c.id !in ChatIds(s.chats)
                 && c.name == name
                 && c.isGroupChat
                 && c.admin == actor
                 && c.participants == Dedup(participants) + [actor]
                 && NoDup(c.participants)
                 && Elements(c.participants) == Elements(participants) + {actor}
                 && |c.participants| >= 3
                 && c.participants[|c.participants| - 1] == actor
                 && c.lastMessage.None?
                 && c.updatedAt == now
                 && r.value.body == ChatBody(Hydrate(r.value.store, c))
                 && Recipients(r.value.outbox) == Elements(participants) * UserIds(s.users)
                 && (forall e :: e in r.value.outbox ==> e.kind == NewChat && e.payload == r.value.body.chat)
  {
    if actor in participants then Err(CreatorInParticipants)
    else
      var members := Dedup(participants + [actor]);
      DedupAppendFresh(participants, actor);
      DedupCount(participants);
      if |members| < 3 then Err(TooFewMembers)
      else
        var c := Chat(NextChatId(s.chats), name, true, members, actor, None, now);
        var t := s.(chats := s.chats + [c]);
        var v := Hydrate(t, c);
        Ok(Reply(201, t, ChatBody(v), FanOut(v.participants, Some(actor), NewChat, v), []))
  }

  // ---------------------------------------------------------------------------
  // getGroupChatDetails

  /** The hydrated group chat with this id, for any caller. */
  function GetGroupChatDetails(s: Store, chatId: ChatId): (r: Result<ChatView, ApiError>)
    ensures r.Err? <==> !HasGroup(s.chats, chatId)
    ensures r.Err? ==> r.error == GroupChatNotFound
    ensures r.Ok? ==> exists c :: c in s.chats && c.id == chatId && c.isGroupChat && r.value == Hydrate(s, c)
  {
    match Group(s, chatId)
    case None => Err(GroupChatNotFound)
    case Some(c) => Ok(Hydrate(s, c))
  }

  // ---------------------------------------------------------------------------
  // renameGroupChat

  /** The admin renames a group; every participant, the admin included, is told. */
  function RenameGroupChat(s: Store, actor: UserId, chatId: ChatId, name: string): (r: Response)
    ensures !HasGroup(s.chats, chatId) ==> r == Err(GroupChatNotFound)
    ensures HasGroup(s.chats, chatId) && Group(s, chatId).value.admin != actor ==> r == Err(NotAdmin)
    ensures r.Ok? <==> HasGroup(s.chats, chatId) && Group(s, chatId).value.admin == actor
    ensures r.Ok? ==>
              var i := FindGroup(s.chats, chatId).value;
              var before := s.chats[i];
              && r.value.status == 200
              && OnlyChatChanged(s, r.value.store, i)
              && r.value.store.chats[i] == before.(name := name)
              && r.value.body == ChatBody(Hydrate(r.value.store, r.value.store.chats[i]))
              && Recipients(r.value.outbox) == Elements(before.participants) * UserIds(s.users)
              && (forall e :: e in r.value.outbox ==> e.kind == UpdateGroupName && e.payload == r.value.body.chat)
              && r.value.unlinked == []
  {
    match FindGroup(s.chats, chatId)
    case None => Err(GroupChatNotFound)
    case Some(i) =>
      var g := s.chats[i];
      if g.admin != actor then Err(NotAdmin)
      else
        var c := g.(name := name);
        var t := ReplaceChat(s, i, c);
        var v := Hydrate(t, c);
        Ok(Reply(200, t, ChatBody(v), FanOut(v.participants, None, UpdateGroupName, v), []))
  }

  // ---------------------------------------------------------------------------
  // deleteGroupChat

  /** The admin deletes a group with its messages and attachments; every other
      participant is told, with the chat as it was before the deletion. */
  function DeleteGroupChat(s: Store, actor: UserId, chatId: ChatId): (r: Response)
    ensures !HasGroup(s.chats, chatId) ==> r == Err(GroupChatNotFound)
    ensures HasGroup(s.chats, chatId) && Group(s, chatId).value.admin != actor ==> r == Err(NotAdmin)
    ensures r.Ok? <==> HasGroup(s.chats, chatId) && Group(s, chatId).value.admin == actor
    ensures r.Ok? ==>
              var i := FindGroup(s.chats, chatId).value;
              var before := Hydrate(s, s.chats[i]);
              && r.value.status == 200
              && r.value.body == EmptyBody
              && r.value.store.users == s.users
              && r.value.store.chats == s.chats[..i] + s.chats[i + 1..]
              && (forall m :: m in r.value.store.messages <==> m in s.messages && m.chat != chatId)
              && (forall c :: c != chatId ==> MessagesOf(r.value.store.messages, c) == MessagesOf(s.messages, c))
              && (forall p :: p in r.value.unlinked <==> StoredFor(s.messages, chatId, p))
              && Recipients(r.value.outbox) == Elements(s.chats[i].participants) * UserIds(s.users) - {actor}
              && (forall e :: e in r.value.outbox ==> e.kind == LeaveChat && e.payload == before)
  {
    match FindGroup(s.chats, chatId)
    case None => Err(GroupChatNotFound)
    case Some(i) =>
      var before := Hydrate(s, s.chats[i]);
      if before.admin != actor then Err(NotAdmin)
      else
        var (t, unlinked) := DeleteChatAndMessages(s, i, chatId);
        Ok(Reply(200, t, EmptyBody, FanOut(before.participants, Some(actor), LeaveChat, before), unlinked))
  }

  // ---------------------------------------------------------------------------
  // deleteOneOnOneChat

  /** The id of the first hydrated participant other than the caller. */
  function OtherParticipant(ps: seq<PublicUser>, actor: UserId): (r: Option<UserId>)
    ensures r.Some? ==> r.value != actor && r.value in ViewIds(ps)
    ensures r.Some? ==> exists k :: 0 <= k < |ps| && ps[k].id == r.value
                                    && forall j :: 0 <= j < k ==> ps[j].id == actor
    ensures r.None? <==> ViewIds(ps) <= {actor}
  {
    match FirstIndex(ps, (p: PublicUser) => p.id != actor)
    case None =>
      assert forall id :: id in ViewIds(ps) ==> id == actor by {
        forall id | id in ViewIds(ps) ensures id == actor {
          var p :| p in ps && p.id == id;
          var k :| 0 <= k < |ps| && ps[k] == p;
        }
      }
      None
    case Some(k) => Some(ps[k].id)
  }

  /** The source reads the other participant's id after deleting the chat and
      fails if there is none; the model requires one to exist. */
  predicate HasOtherParticipant(s: Store, actor: UserId, chatId: ChatId)
  {
    match FindChat(s.chats, chatId)
    case None => true
    case Some(i) => Elements(s.chats[i].participants) * UserIds(s.users) - {actor} != {}
  }

  /** Deletes any chat with this id, group or not, whoever the caller is, and tells
      the first other participant. */
  function DeleteOneOnOneChat(s: Store, actor: UserId, chatId: ChatId): (r: Response)
    requires HasOtherParticipant(s, actor, chatId)
    ensures r.Err? <==> chatId !in ChatIds(s.chats)
    ensures r.Err? ==> r.error == ChatNotFound
    ensures r.Ok? ==>
              var i := FindChat(s.chats, chatId).value;
              var before := Hydrate(s, s.chats[i]);
              && r.value.status == 200
              && r.value.body == EmptyBody
              && r.value.store.users == s.users
              && r.value.store.chats == s.chats[..i] + s.chats[i + 1..]
              && (forall m :: m in r.value.store.messages <==> m in s.messages && m.chat != chatId)
              && (forall c :: c != chatId ==> MessagesOf(r.value.store.messages, c) == MessagesOf(s.messages, c))
              && (forall p :: p in r.value.unlinked <==> StoredFor(s.messages, chatId, p))
              && |r.value.outbox| == 1
              && r.value.outbox[0].to == OtherParticipant(before.participants, actor).value
              && r.value.outbox[0].to != actor
              && r.value.outbox[0].to in Elements(s.chats[i].participants) * UserIds(s.users)
              && r.value.outbox[0].kind == LeaveChat
              && r.value.outbox[0].payload == before
  {
    match FindChat(s.chats, chatId)
    case None => Err(ChatNotFound)
    case Some(i) =>
      var before := Hydrate(s, s.chats[i]);
      var (t, unlinked) := DeleteChatAndMessages(s, i, chatId);
      var other := OtherParticipant(before.participants, actor);
      assert other.Some?;
      Ok(Reply(200, t, EmptyBody, [Event(other.value, LeaveChat, before)], unlinked))
  }

  // ---------------------------------------------------------------------------
  // leaveGroupChat

  /** A member leaves a group: every occurrence of the caller is pulled from the
      participants. Nobody is told. */
  function LeaveGroupChat(s: Store, actor: UserId, chatId: ChatId): (r: Response)
    ensures !HasGroup(s.chats, chatId) ==> r == Err(GroupChatNotFound)
    ensures HasGroup(s.chats, chatId) && actor !in Group(s, chatId).value.participants ==> r == Err(NotMember)
    ensures r.Ok? <==> HasGroup(s.chats, chatId) && actor in Group(s, chatId).value.participants
    ensures r.Ok? ==>
              var i := FindGroup(s.chats, chatId).value;
              var before := s.chats[i];
              && r.value.status == 200
              && OnlyChatChanged(s, r.value.store, i)
              && var after := r.value.store.chats[i];
              && after == before.(participants := after.participants)
              && after.participants == Pull(before.participants, actor)
              && actor !in after.participants
              && (forall y :: y != actor ==> multiset(after.participants)[y] == multiset(before.participants)[y])
              && r.value.body == ChatBody(Hydrate(r.value.store, after))
              && r.value.outbox == []
              && r.value.unlinked == []
  {
    match FindGroup(s.chats, chatId)
    case None => Err(GroupChatNotFound)
    case Some(i) =>
      var g := s.chats[i];
      if actor !in g.participants then Err(NotMember)
      else
        var c := g.(participants := Pull(g.participants, actor));
        var t := ReplaceChat(s, i, c);
        Ok(Reply(200, t, ChatBody(Hydrate(t, c)), [], []))
  }

  // ---------------------------------------------------------------------------
  // addNewParticipantInGroupChat

  /** The admin appends a new participant, who alone is told. */
  function AddNewParticipantInGroupChat(s: Store, actor: UserId, chatId: ChatId, target: UserId): (r: Response)
    ensures !HasGroup(s.chats, chatId) ==> r == Err(GroupChatNotFound)
    ensures HasGroup(s.chats, chatId) && Group(s, chatId).value.admin != actor ==> r == Err(NotAdmin)
    ensures (HasGroup(s.chats, chatId) && Group(s, chatId).value.admin == actor
             && target in Group(s, chatId).value.participants) ==> r == Err(AlreadyMember)
    ensures r.Ok? <==> HasGroup(s.chats, chatId) && Group(s, chatId).value.admin == actor
                       && target !in Group(s, chatId).value.participants
    ensures r.Ok? ==>
              var i := FindGroup(s.chats, chatId).value;
              var before := s.chats[i];
              && r.value.status == 200
              && OnlyChatChanged(s, r.value.store, i)
              && r.value.store.chats[i] == before.(participants := before.participants + [target])
              && r.value.body == ChatBody(Hydrate(r.value.store, r.value.store.chats[i]))
              && r.value.outbox == [Event(target, NewChat, r.value.body.chat)]
              && r.value.unlinked == []
  {
    match FindGroup(s.chats, chatId)
    case None => Err(GroupChatNotFound)
    case Some(i) =>
      var g := s.chats[i];
      if g.admin != actor then Err(NotAdmin)
      else if target in g.participants then Err(AlreadyMember)
      else
        var c := g.(participants := g.participants + [target]);
        var t := ReplaceChat(s, i, c);
        var v := Hydrate(t, c);
        Ok(Reply(200, t, ChatBody(v), [Event(target, NewChat, v)], []))
  }

  // ---------------------------------------------------------------------------
  // removeParticipantFromGroupChat

  /** The admin pulls every occurrence of a participant, who alone is told. */
  function RemoveParticipantFromGroupChat(s: Store, actor: UserId, chatId: ChatId, target: UserId): (r: Response)
    ensures !HasGroup(s.chats, chatId) ==> r == Err(GroupChatNotFound)
    ensures HasGroup(s.chats, chatId) && Group(s, chatId).value.admin != actor ==> r == Err(NotAdmin)
    ensures (HasGroup(s.chats, chatId) && Group(s, chatId).value.admin == actor
             && target !in Group(s, chatId).value.participants) ==> r == Err(NotMember)
    ensures r.Ok? <==> HasGroup(s.chats, chatId) && Group(s, chatId).value.admin == actor
                       && target in Group(s, chatId).value.participants
    ensures r.Ok? ==>
              var i := FindGroup(s.chats, chatId).value;
              var before := s.chats[i];
              && r.value.status == 200
              && OnlyChatChanged(s, r.value.store, i)
              && var after := r.value.store.chats[i];
              && after == before.(participants := after.participants)
              && after.participants == Pull(before.participants, target)
              && target !in after.participants
              && (forall y :: y != target ==> multiset(after.participants)[y] == multiset(before.participants)[y])
              && r.value.body == ChatBody(Hydrate(r.value.store, after))
              && r.value.outbox == [Event(target, LeaveChat, r.value.body.chat)]
              && r.value.unlinked == []
  {
    match FindGroup(s.chats, chatId)
    case None => Err(GroupChatNotFound)
    case Some(i) =>
      var g := s.chats[i];
      if g.admin != actor then Err(NotAdmin)
      else if target !in g.participants then Err(NotMember)
      else
        var c := g.(participants := Pull(g.participants, target));
        var t := ReplaceChat(s, i, c);
        var v := Hydrate(t, c);
        Ok(Reply(200, t, ChatBody(v), [Event(target, LeaveChat, v)], []))
  }

  // ---------------------------------------------------------------------------
  // getAllChats

  /** Hydrates each chat, keeping the order. */
  function Views(s: Store, cs: seq<Chat>): (r: seq<ChatView>)
    ensures |r| == |cs|
    ensures forall k :: 0 <= k < |cs| ==> r[k] == Hydrate(s, cs[k])
  {
    if |cs| == 0 then [] else [Hydrate(s, cs[0])] + Views(s, cs[1..])
  }

  /** Hydrating a permutation shows the same chats. */
  lemma ViewsCover(s: Store, cs: seq<Chat>, perm: seq<Chat>)
    requires multiset(perm) == multiset(cs)
    ensures forall c :: c in cs ==> Hydrate(s, c) in Views(s, perm)
    ensures forall v :: v in Views(s, perm) ==> exists c :: c in cs && v == Hydrate(s, c)
  {
    var r := Views(s, perm);
    forall c | c in cs
      ensures Hydrate(s, c) in r
    {
      assert c in multiset(perm);
      var k :| 0 <= k < |perm| && perm[k] == c;
      assert r[k] == Hydrate(s, c);
    }
    forall v | v in r
      ensures exists c :: c in cs && v == Hydrate(s, c)
    {
      var k :| 0 <= k < |r| && r[k] == v;
      assert perm[k] in multiset(cs);
    }
  }

  /** Every chat the caller participates in, hydrated, most recently updated
      first. */
  function GetAllChats(s: Store, actor: UserId): (r: seq<ChatView>)
    ensures |r| == |Filter(s.chats, (c: Chat) => actor in c.participants)|
    ensures forall k, l :: 0 <= k < l < |r| ==> r[k].updatedAt >= r[l].updatedAt
    ensures forall c :: c in s.chats && actor in c.participants ==> Hydrate(s, c) in r
    ensures forall v :: v in r ==> exists c :: c in s.chats && actor in c.participants && v == Hydrate(s, c)
  {
    var mine := Filter(s.chats, (c: Chat) => actor in c.participants);
    var sorted := SortByRecency(mine);
    var r := Views(s, sorted);
    assert |sorted| == |mine| by {
      assert |multiset(sorted)| == |multiset(mine)|;
    }
    ViewsCover(s, mine, sorted);
    r
  }
}

=== FILE: chat_properties.dfy ===
/** Properties that relate several handler calls: get-or-create is idempotent,
    removing a participant undoes adding one, renames are last-write-wins, a
    deletion leaves nothing of the chat behind, and an admin who leaves a group
    keeps the admin rights over it. */
module ChatProperties {
  import opened Wrappers
  import opened Sequences
  import opened Errors
  import opened Models
  import opened Hydration
  import opened Events
  import opened Cascade
  import opened ChatControllers
  import opened StoreInvariants

  /** Replacing the group chat a lookup found by another group chat with the
      same id leaves the lookup's answer where it was. */
  lemma FindGroupAfterReplace(cs: seq<Chat>, id: ChatId, c: Chat)
    requires FindGroup(cs, id).Some?
    requires c.id == id && c.isGroupChat
    ensures FindGroup(cs[FindGroup(cs, id).value := c], id) == FindGroup(cs, id)
  {
    var i := FindGroup(cs, id).value;
    var ds := cs[i := c];
    var p := (x: Chat) => x.id == id && x.isGroupChat;
    assert forall k :: 0 <= k < i ==> ds[k] == cs[k] && !p(ds[k]);
    assert p(ds[i]);
  }

  /** A freshly appended chat is the one a lookup by its id finds. */
  lemma FindGroupAppended(cs: seq<Chat>, c: Chat)
    requires c.id !in ChatIds(cs) && c.isGroupChat
    ensures FindGroup(cs + [c], c.id) == Some(|cs|)
  {
    var ds := cs + [c];
    var p := (x: Chat) => x.id == c.id && x.isGroupChat;
    forall k | 0 <= k < |cs|
      ensures !p(ds[k])
    {
      assert ds[k] == cs[k];
      assert cs[k] in cs;
    }
    assert p(ds[|cs|]);
  }

  // ---------------------------------------------------------------------------
  // createOrGetAOneOnOneChat

  /** Asking twice for the chat with the same user returns the same chat; the
      second call changes nothing and notifies nobody. */
  lemma OneOnOneIdempotent(s: Store, actor: UserId, receiverId: UserId, now: int, later: int)
    ensures var r1 := CreateOrGetAOneOnOneChat(s, actor, receiverId, now);
            r1.Ok? ==>
              var r2 := CreateOrGetAOneOnOneChat(r1.value.store, actor, receiverId, later);
              && r2.Ok?
              && r2.value.status == 200
              && r2.value.store == r1.value.store
              && r2.value.outbox == []
              && r2.value.body == r1.value.body
  {
    var r1 := CreateOrGetAOneOnOneChat(s, actor, receiverId, now);
    if r1.Ok? && FindPair(s.chats, actor, receiverId).None? {
      var t := r1.value.store;
      assert t.chats == s.chats + [t.chats[|s.chats|]];
      FindPairAppended(s.chats, t.chats[|s.chats|], actor, receiverId);
    }
  }

  /** When no chat joins the pair, the lookup finds the chat appended for it. */
  lemma FindPairAppended(cs: seq<Chat>, c: Chat, a: UserId, b: UserId)
    requires FindPair(cs, a, b).None?
    requires Connects(c, a, b)
    ensures FindPair(cs + [c], a, b) == Some(|cs|)
  {
    var ds := cs + [c];
    var p := (x: Chat) => Connects(x, a, b);
    forall k | 0 <= k < |cs|
      ensures !p(ds[k])
    {
      assert ds[k] == cs[k];
    }
    assert p(ds[|cs|]);
  }

  /** Under the store invariant, the chat get-or-create returns for an existing
      pair is the only one-on-one chat between the two users. */
  lemma ExistingOneOnOneIsUnique(s: Store, actor: UserId, receiverId: UserId, now: int)
    requires Inv(s)
    ensures var r := CreateOrGetAOneOnOneChat(s, actor, receiverId, now);
            r.Ok? && r.value.status == 200 ==>
              forall k :: 0 <= k < |s.chats| && Connects(s.chats[k], actor, receiverId) ==>
                r.value.body == ChatBody(Hydrate(s, s.chats[k]))
  {
    var r := CreateOrGetAOneOnOneChat(s, actor, receiverId, now);
    if r.Ok? && r.value.status == 200 {
      var i := FindPair(s.chats, actor, receiverId).value;
      forall k | 0 <= k < |s.chats| && Connects(s.chats[k], actor, receiverId)
        ensures r.value.body == ChatBody(Hydrate(s, s.chats[k]))
      {
        AtMostOneChatPerPair(s.chats, actor, receiverId, i, k);
      }
    }
  }

  // ---------------------------------------------------------------------------
  // createAGroupChat / getGroupChatDetails

  /** A group just created is what the details query returns for its id. */
  lemma CreatedGroupIsFetchable(s: Store, actor: UserId, name: string, participants: seq<UserId>, now: int)
    ensures var r := CreateAGroupChat(s, actor, name, participants, now);
            r.Ok? ==>
              var c := r.value.store.chats[|s.chats|];
              GetGroupChatDetails(r.value.store, c.id) == Ok(r.value.body.chat)
  {
    var r := CreateAGroupChat(s, actor, name, participants, now);
    if r.Ok? {
      var c := r.value.store.chats[|s.chats|];
      assert r.value.store.chats == s.chats + [c];
      FindGroupAppended(s.chats, c);
    }
  }

  // ---------------------------------------------------------------------------
  // renameGroupChat

  /** Of two renames by the admin, the second wins. */
  lemma RenameLastWriteWins(s: Store, actor: UserId, chatId: ChatId, first: string, second: string)
    ensures var r1 := RenameGroupChat(s, actor, chatId, first);
            r1.Ok? ==>
              var r2 := RenameGroupChat(r1.value.store, actor, chatId, second);
              r2.Ok? && r2.value.store == RenameGroupChat(s, actor, chatId, second).value.store
  {
    var r1 := RenameGroupChat(s, actor, chatId, first);
    if r1.Ok? {
      var i := FindGroup(s.chats, chatId).value;
      FindGroupAfterReplace(s.chats, chatId, r1.value.store.chats[i]);
      assert r1.value.store.chats == s.chats[i := r1.value.store.chats[i]];
    }
  }

  /** Renaming back to the old name restores the store. */
  lemma RenameBackRestores(s: Store, actor: UserId, chatId: ChatId, name: string)
    ensures var r1 := RenameGroupChat(s, actor, chatId, name);
            r1.Ok? ==>
              var oldName := s.chats[FindGroup(s.chats, chatId).value].name;
              var r2 := RenameGroupChat(r1.value.store, actor, chatId, oldName);
              r2.Ok? && r2.value.store == s
  {
    var r1 := RenameGroupChat(s, actor, chatId, name);
    if r1.Ok? {
      var i := FindGroup(s.chats, chatId).value;
      FindGroupAfterReplace(s.chats, chatId, r1.value.store.chats[i]);
      assert r1.value.store.chats == s.chats[i := r1.value.store.chats[i]];
    }
  }

  // ---------------------------------------------------------------------------
  // addNewParticipantInGroupChat / removeParticipantFromGroupChat / leaveGroupChat

  /** Removing the participant just added restores the store, and the removed
      user alone is told. */
  lemma AddThenRemoveRestores(s: Store, actor: UserId, chatId: ChatId, target: UserId)
    ensures var r1 := AddNewParticipantInGroupChat(s, actor, chatId, target);
            r1.Ok? ==>
              var r2 := RemoveParticipantFromGroupChat(r1.value.store, actor, chatId, target);
              && r2.Ok?
              && r2.value.store == s
              && Recipients(r2.value.outbox) == {target}
  {
    var r1 := AddNewParticipantInGroupChat(s, actor, chatId, target);
    if r1.Ok? {
      var i := FindGroup(s.chats, chatId).value;
      var g := s.chats[i];
      FindGroupAfterReplace(s.chats, chatId, r1.value.store.chats[i]);
      assert r1.value.store.chats == s.chats[i := r1.value.store.chats[i]];
      PullUndoesPush(g.participants, target);
      assert g.(participants := g.participants) == g;
      assert s.chats[i := g] == s.chats;
    }
  }

  /** A participant pulled out of a group cannot be pulled out again. */
  lemma RemoveTwiceFails(s: Store, actor: UserId, chatId: ChatId, target: UserId)
    ensures var r1 := RemoveParticipantFromGroupChat(s, actor, chatId, target);
            r1.Ok? ==> RemoveParticipantFromGroupChat(r1.value.store, actor, chatId, target) == Err(NotMember)
  {
    var r1 := RemoveParticipantFromGroupChat(s, actor, chatId, target);
    if r1.Ok? {
      var i := FindGroup(s.chats, chatId).value;
      FindGroupAfterReplace(s.chats, chatId, r1.value.store.chats[i]);
      assert r1.value.store.chats == s.chats[i := r1.value.store.chats[i]];
    }
  }

  /** Leaving pulls every occurrence of the caller, so a second leave fails. */
  lemma LeaveTwiceFails(s: Store, actor: UserId, chatId: ChatId)
    ensures var r1 := LeaveGroupChat(s, actor, chatId);
            r1.Ok? ==> LeaveGroupChat(r1.value.store, actor, chatId) == Err(NotMember)
  {
    var r1 := LeaveGroupChat(s, actor, chatId);
    if r1.Ok? {
      var i := FindGroup(s.chats, chatId).value;
      FindGroupAfterReplace(s.chats, chatId, r1.value.store.chats[i]);
      assert r1.value.store.chats == s.chats[i := r1.value.store.chats[i]];
    }
  }

  /** Nothing stops the admin from leaving: afterwards the admin is no longer a
      participant yet still passes the admin check, for instance to rename the
      group. A group's admin is therefore not always one of its members. */
  lemma AdminKeepsRightsAfterLeaving(s: Store, actor: UserId, chatId: ChatId, name: string)
    requires HasGroup(s.chats, chatId)
    requires Group(s, chatId).value.admin == actor
    requires actor in Group(s, chatId).value.participants
    ensures var r1 := LeaveGroupChat(s, actor, chatId);
            && r1.Ok?
            && var g := Group(r1.value.store, chatId).value;
               && g.admin == actor
               && actor !in g.participants
               && RenameGroupChat(r1.value.store, actor, chatId, name).Ok?
  {
    var r1 := LeaveGroupChat(s, actor, chatId);
    var i := FindGroup(s.chats, chatId).value;
    FindGroupAfterReplace(s.chats, chatId, r1.value.store.chats[i]);
    assert r1.value.store.chats == s.chats[i := r1.value.store.chats[i]];
  }

  // ---------------------------------------------------------------------------
  // deleteGroupChat / deleteOneOnOneChat

  /** No message of a chat survives a cascade that removed them all. */
  lemma NoMessagesLeft(kept: seq<Message>, chatId: ChatId)
    requires forall m :: m in kept ==> m.chat != chatId
    ensures MessagesOf(kept, chatId) == []
  {
    assert forall k :: 0 <= k < |kept| ==> kept[k] in kept;
    FilterKeepsNone(kept, (m: Message) => m.chat == chatId);
  }

  /** Under the store invariant, after a group is deleted no chat has its id, no
      message refers to it, the details query reports it missing, and running the
      cascade again deletes and unlinks nothing. */
  lemma DeletedGroupIsGone(s: Store, actor: UserId, chatId: ChatId)
    requires Inv(s)
    ensures var r := DeleteGroupChat(s, actor, chatId);
            r.Ok? ==>
              var t := r.value.store;
              && chatId !in ChatIds(t.chats)
              && MessagesOf(t.messages, chatId) == []
              && GetGroupChatDetails(t, chatId) == Err(GroupChatNotFound)
              && DeleteCascadeChatMessages(t.messages, chatId) == Purge(t.messages, [])
  {
    var r := DeleteGroupChat(s, actor, chatId);
    if r.Ok? {
      var t := r.value.store;
      var i := FindGroup(s.chats, chatId).value;
      RemovedIdIsGone(s.chats, i);
      NoMessagesLeft(t.messages, chatId);
      CascadeOfCleared(t.messages, chatId);
    }
  }

  /** The same for the one-on-one delete path. */
  lemma DeletedOneOnOneIsGone(s: Store, actor: UserId, chatId: ChatId)
    requires Inv(s)
    requires HasOtherParticipant(s, actor, chatId)
    ensures var r := DeleteOneOnOneChat(s, actor, chatId);
            r.Ok? ==>
              var t := r.value.store;
              && chatId !in ChatIds(t.chats)
              && MessagesOf(t.messages, chatId) == []
              && DeleteCascadeChatMessages(t.messages, chatId) == Purge(t.messages, [])
  {
    DeletedOneOnOneLeavesNoChat(s, actor, chatId);
    DeletedOneOnOneLeavesNoMessage(s, actor, chatId);
  }

  /** No chat carries the id of a deleted one-on-one chat. */
  lemma DeletedOneOnOneLeavesNoChat(s: Store, actor: UserId, chatId: ChatId)
    requires Inv(s)
    requires HasOtherParticipant(s, actor, chatId)
    ensures var r := DeleteOneOnOneChat(s, actor, chatId);
            r.Ok? ==> chatId !in ChatIds(r.value.store.chats)
  {
    var r := DeleteOneOnOneChat(s, actor, chatId);
    if r.Ok? {
      RemovedIdIsGone(s.chats, FindChat(s.chats, chatId).value);
    }
  }

  /** No message of a deleted one-on-one chat is left for a second cascade. */
  lemma DeletedOneOnOneLeavesNoMessage(s: Store, actor: UserId, chatId: ChatId)
    requires HasOtherParticipant(s, actor, chatId)
    ensures var r := DeleteOneOnOneChat(s, actor, chatId);
            r.Ok? ==>
              var t := r.value.store;
              && MessagesOf(t.messages, chatId) == []
              && DeleteCascadeChatMessages(t.messages, chatId) == Purge(t.messages, [])
  {
    var r := DeleteOneOnOneChat(s, actor, chatId);
    if r.Ok? {
      var t := r.value.store;
      NoMessagesLeft(t.messages, chatId);
      CascadeOfCleared(t.messages, chatId);
    }
  }


  // ---------------------------------------------------------------------------
  // Status codes

  /** A caller who is not the group's admin is turned away with a 404 by every
      admin-only handler, before anything else is checked. */
  lemma FailedAdminCheckIs404(s: Store, actor: UserId, chatId: ChatId, name: string, target: UserId)
    requires HasGroup(s.chats, chatId) && Group(s, chatId).value.admin != actor
    ensures var r := RenameGroupChat(s, actor, chatId, name);
            r == Err(NotAdmin) && StatusCode(r.error) == 404
    ensures var r := DeleteGroupChat(s, actor, chatId);
            r == Err(NotAdmin) && StatusCode(r.error) == 404
    ensures var r := AddNewParticipantInGroupChat(s, actor, chatId, target);
            r == Err(NotAdmin) && StatusCode(r.error) == 404
    ensures var r := RemoveParticipantFromGroupChat(s, actor, chatId, target);
            r == Err(NotAdmin) && StatusCode(r.error) == 404
  {
  }

  // ---------------------------------------------------------------------------
  // Fan-out: with unique user ids, every registered recipient hears of a change
  // exactly once, and nobody else hears of it.

  /** Get-or-create tells the receiver once when it creates the chat, and nobody
      when it returns an existing one. */
  lemma CreateOrGetNotifiesOnce(s: Store, actor: UserId, receiverId: UserId, now: int)
    requires UniqueUserIds(s.users)
    ensures var r := CreateOrGetAOneOnOneChat(s, actor, receiverId, now);
            r.Ok? ==>
              forall id: UserId :: EventsTo(r.value.outbox, id) ==
                                   if r.value.status == 201 && id == receiverId then 1 else 0
  {
    var r := CreateOrGetAOneOnOneChat(s, actor, receiverId, now);
    if r.Ok? {
      if FindPair(s.chats, actor, receiverId).None? {
        assert r.value == NewPairChat(s, actor, receiverId, now);
        NewPairChatNotifiesOnce(s, actor, receiverId, now);
      } else {
        assert r.value.outbox == [];
      }
    }
  }

  /** The creation branch tells a registered receiver once, and nobody else. */
  lemma NewPairChatNotifiesOnce(s: Store, actor: UserId, receiverId: UserId, now: int)
    requires UniqueUserIds(s.users) && actor != receiverId
    ensures forall id: UserId :: EventsTo(NewPairChat(s, actor, receiverId, now).outbox, id) ==
                                 if id == receiverId && id in UserIds(s.users) then 1 else 0
  {
    var c := Chat(NextChatId(s.chats), OneOnOneChatName, false, [actor, receiverId], actor, None, now);
    var t := s.(chats := s.chats + [c]);
    var v := Hydrate(t, c);
    var ps := ParticipantsOf(t.users, c.participants);
    assert v.participants == ps;
    assert NewPairChat(s, actor, receiverId, now).outbox == FanOut(ps, Some(actor), NewChat, v);
    HydratedOnce(t, c);
    assert Elements(c.participants) == {actor, receiverId};
  }

  /** Group creation tells each registered invitee once. */
  lemma CreateGroupNotifiesOnce(s: Store, actor: UserId, name: string, participants: seq<UserId>, now: int)
    requires UniqueUserIds(s.users)
    ensures var r := CreateAGroupChat(s, actor, name, participants, now);
            r.Ok? ==>
              forall id: UserId :: EventsTo(r.value.outbox, id) ==
                                   if id in Elements(participants) * UserIds(s.users) then 1 else 0
  {
    var r := CreateAGroupChat(s, actor, name, participants, now);
    if r.Ok? {
      var c := r.value.store.chats[|s.chats|];
      HydratedOnce(r.value.store, c);
    }
  }

  /** A rename tells each registered participant once, the admin included. */
  lemma RenameNotifiesOnce(s: Store, actor: UserId, chatId: ChatId, name: string)
    requires UniqueUserIds(s.users)
    ensures var r := RenameGroupChat(s, actor, chatId, name);
            r.Ok? ==>
              forall id: UserId :: EventsTo(r.value.outbox, id) ==
                                   if id in Elements(Group(s, chatId).value.participants) * UserIds(s.users) then 1 else 0
  {
    var r := RenameGroupChat(s, actor, chatId, name);
    if r.Ok? {
      var i := FindGroup(s.chats, chatId).value;
      HydratedOnce(r.value.store, r.value.store.chats[i]);
    }
  }

  /** Deleting a group tells each registered participant other than the admin once. */
  lemma DeleteGroupNotifiesOnce(s: Store, actor: UserId, chatId: ChatId)
    requires UniqueUserIds(s.users)
    ensures var r := DeleteGroupChat(s, actor, chatId);
            r.Ok? ==>
              forall id: UserId :: EventsTo(r.value.outbox, id) ==
                                   if id in Elements(Group(s, chatId).value.participants) * UserIds(s.users) - {actor} then 1 else 0
  {
    var r := DeleteGroupChat(s, actor, chatId);
    if r.Ok? {
      var i := FindGroup(s.chats, chatId).value;
      HydratedOnce(s, s.chats[i]);
    }
  }

  // ---------------------------------------------------------------------------
  // A complete session

  // `Person`, `Trio` and `TrioIds` exist only to show that the session's
  // precondition is met by a concrete store.

  /** A registered user with the given id and no secrets set. */
  function Person(id: UserId, name: string): User
  {
    User(id, LocalFile("https://via.placeholder.com/200x200.png", ""), name, name + "@example.com",
         "USER", "password-hash", "EMAIL_PASSWORD", true, None, None, None, None, None)
  }

  /** The three registered users of the session. */
  function Trio(): Store
  {
    Store([Person(1, "ann"), Person(2, "bob"), Person(3, "cy")], [], [])
  }

  /** In a store whose only chat is a group, the group lookups find it. */
  lemma SoleGroup(s: Store)
    requires |s.chats| == 1 && s.chats[0].isGroupChat
    ensures FindGroup(s.chats, s.chats[0].id) == Some(0)
    ensures HasGroup(s.chats, s.chats[0].id)
    ensures Group(s, s.chats[0].id) == Some(s.chats[0])
  {
    assert s.chats[0] in s.chats;
  }

  /** A store holding exactly one group chat, administered by user 1. */
  predicate OneGroupOf(s: Store, members: set<UserId>)
  {
    && UserIds(s.users) == {1, 2, 3}
    && |s.chats| == 1
    && s.chats[0].isGroupChat
    && s.chats[0].admin == 1
    && Elements(s.chats[0].participants) == members
  }

  /** The registered members of that group are exactly its members. */
  lemma OneGroupMembers(s: Store, members: set<UserId>)
    requires OneGroupOf(s, members) && members <= {1, 2, 3}
    ensures Elements(s.chats[0].participants) * UserIds(s.users) == members
  {
  }


  /** Step 1: user 1 creates "Trip" with users 2 and 3 in a store where the three
      are registered and no chat exists yet; each of the two is told once.
      The invitation list is a parameter pinned by `requires` rather than a
      literal argument, so that the verifier reasons from the handler's contract
      instead of evaluating its body on constants. */
  lemma TripCreate(s: Store, invited: seq<UserId>)
    requires UserIds(s.users) == {1, 2, 3} && UniqueUserIds(s.users) && s.chats == []
    requires invited == [2, 3]
    ensures var r := CreateAGroupChat(s, 1, "Trip", invited, 100);
            && r.Ok?
            && Recipients(r.value.outbox) == {2, 3}
            && EventsTo(r.value.outbox, 2) == 1 && EventsTo(r.value.outbox, 3) == 1
            && r.value.store.users == s.users
            && OneGroupOf(r.value.store, {1, 2, 3})
  {
    assert Elements(invited) == {2, 3} by {
      assert invited[0] == 2 && invited[1] == 3;
    }
    TripCreateShape(s, invited);
    TripCreateNotifies(s, invited);
  }

  /** The store and the recipients after step 1. */
  lemma TripCreateShape(s: Store, invited: seq<UserId>)
    requires UserIds(s.users) == {1, 2, 3} && |s.chats| == 0
    requires Elements(invited) == {2, 3}
    ensures var r := CreateAGroupChat(s, 1, "Trip", invited, 100);
            && r.Ok?
            && Recipients(r.value.outbox) == {2, 3}
            && r.value.store.users == s.users
            && OneGroupOf(r.value.store, {1, 2, 3})
  {
    TripCreateAccepted(s, invited);
    TripCreateGroup(s, invited);
  }

  /** Step 1 is accepted, leaves the users alone and tells users 2 and 3. */
  lemma TripCreateAccepted(s: Store, invited: seq<UserId>)
    requires UserIds(s.users) == {1, 2, 3}
    requires Elements(invited) == {2, 3}
    ensures var r := CreateAGroupChat(s, 1, "Trip", invited, 100);
            && r.Ok?
            && Recipients(r.value.outbox) == {2, 3}
            && r.value.store.users == s.users
  {
    assert 1 !in Elements(invited);
    assert |Elements(invited)| == |{2, 3}| == 2;
  }

  /** Step 1 leaves one group of the three users, administered by user 1. */
  lemma TripCreateGroup(s: Store, invited: seq<UserId>)
    requires UserIds(s.users) == {1, 2, 3} && |s.chats| == 0
    requires Elements(invited) == {2, 3}
    ensures var r := CreateAGroupChat(s, 1, "Trip", invited, 100);
            r.Ok? && OneGroupOf(r.value.store, {1, 2, 3})
  {
    assert 1 !in Elements(invited);
    assert |Elements(invited)| == |{2, 3}| == 2;
    var r := CreateAGroupChat(s, 1, "Trip", invited, 100);
    var t := r.value.store;
    assert t.chats == [t.chats[0]];
  }

  /** In step 1, users 2 and 3 each receive one event. */
  lemma TripCreateNotifies(s: Store, invited: seq<UserId>)
    requires UserIds(s.users) == {1, 2, 3} && UniqueUserIds(s.users)
    requires invited == [2, 3]
    ensures var r := CreateAGroupChat(s, 1, "Trip", invited, 100);
            && r.Ok?
            && EventsTo(r.value.outbox, 2) == 1 && EventsTo(r.value.outbox, 3) == 1
  {
    assert Elements(invited) == {2, 3} by {
      assert invited[0] == 2 && invited[1] == 3;
    }
    CreateGroupNotifiesOnce(s, 1, "Trip", invited, 100);
    assert 2 in Elements(invited) * UserIds(s.users) && 3 in Elements(invited) * UserIds(s.users);
  }

  lemma TrioIds()
    ensures UserIds(Trio().users) == {1, 2, 3}
    ensures UniqueUserIds(Trio().users)
  {
    var us := Trio().users;
    assert us[0].id == 1 && us[1].id == 2 && us[2].id == 3;
    assert us[0] in us && us[1] in us && us[2] in us;
  }

  /** Step 2: the admin renames the group; every member, the admin included, is
      told exactly once. */
  lemma TripRename(s: Store)
    requires OneGroupOf(s, {1, 2, 3}) && UniqueUserIds(s.users)
    ensures var r := RenameGroupChat(s, 1, s.chats[0].id, "Trip 2024");
            && r.Ok?
            && Recipients(r.value.outbox) == {1, 2, 3}
            && EventsTo(r.value.outbox, 1) == 1 && EventsTo(r.value.outbox, 2) == 1 && EventsTo(r.value.outbox, 3) == 1
            && (forall e :: e in r.value.outbox ==> e.kind == UpdateGroupName && e.payload.name == "Trip 2024")
            && r.value.store.users == s.users
            && OneGroupOf(r.value.store, {1, 2, 3})
  {
    var c := s.chats[0];
    SoleGroup(s);
    var r := RenameGroupChat(s, 1, c.id, "Trip 2024");
    assert r.value.store.chats == [c.(name := "Trip 2024")];
    RenameNotifiesOnce(s, 1, c.id, "Trip 2024");
    OneGroupMembers(s, {1, 2, 3});
  }

  /** Step 3: the admin removes user 3, who alone is told. */
  lemma TripRemove(s: Store)
    requires OneGroupOf(s, {1, 2, 3})
    ensures var r := RemoveParticipantFromGroupChat(s, 1, s.chats[0].id, 3);
            && r.Ok?
            && Recipients(r.value.outbox) == {3}
            && r.value.store.users == s.users
            && OneGroupOf(r.value.store, {1, 2})
  {
    TripRemoveAccepted(s);
    TripRemoveGroup(s);
  }

  /** Step 3 is accepted, leaves the users alone and tells user 3 alone. */
  lemma TripRemoveAccepted(s: Store)
    requires OneGroupOf(s, {1, 2, 3})
    ensures var r := RemoveParticipantFromGroupChat(s, 1, s.chats[0].id, 3);
            && r.Ok?
            && Recipients(r.value.outbox) == {3}
            && r.value.store.users == s.users
  {
    SoleGroup(s);
    assert 3 in s.chats[0].participants by {
      assert 3 in Elements(s.chats[0].participants);
    }
  }

  /** Step 3 leaves the one group with users 1 and 2. */
  lemma TripRemoveGroup(s: Store)
    requires OneGroupOf(s, {1, 2, 3})
    ensures var r := RemoveParticipantFromGroupChat(s, 1, s.chats[0].id, 3);
            r.Ok? && OneGroupOf(r.value.store, {1, 2})
  {
    var c := s.chats[0];
    SoleGroup(s);
    PullElements(c.participants, 3);
    assert {1, 2, 3} - {3} == {1, 2};
    var r := RemoveParticipantFromGroupChat(s, 1, c.id, 3);
    assert r.value.store.chats == [r.value.store.chats[0]];
  }



  /** The message user 2 posted in chat `id`, with one stored attachment. */
  function Posted(id: ChatId): Message
  {
    Message(7, id, 2, "see you", [LocalFile("/images/map.png", "public/images/map.png")])
  }

  /** Step 4: after a message with an attachment, the admin deletes the group:
      chat, message and file go, and the remaining member is told once. */
  lemma TripDelete(s: Store)
    requires OneGroupOf(s, {1, 2}) && UniqueUserIds(s.users)
    ensures var id := s.chats[0].id;
            var r := DeleteGroupChat(s.(messages := [Posted(id)]), 1, id);
            && r.Ok?
            && r.value.store.chats == []
            && r.value.store.messages == []
            && r.value.unlinked == ["public/images/map.png"]
            && Recipients(r.value.outbox) == {2}
            && EventsTo(r.value.outbox, 2) == 1
  {
    var id := s.chats[0].id;
    var posted := Posted(id);
    var t := s.(messages := [posted]);
    assert OneGroupOf(t, {1, 2});
    TripDeleteChats(t);
    TripDeleteMessages(t, posted);
    TripDeleteFiles(t, posted);
    TripDeleteNotifies(t);
  }

  /** Deleting the only group empties the chats and tells the other member. */
  lemma TripDeleteChats(s: Store)
    requires OneGroupOf(s, {1, 2})
    ensures var r := DeleteGroupChat(s, 1, s.chats[0].id);
            && r.Ok?
            && r.value.store.chats == []
            && Recipients(r.value.outbox) == {2}
  {
    SoleGroup(s);
    OneGroupMembers(s, {1, 2});
    assert {1, 2} - {1} == {2};
  }

  /** When the deleted group's chat holds the only message, no message is left. */
  lemma TripDeleteMessages(s: Store, m: Message)
    requires OneGroupOf(s, {1, 2})
    requires s.messages == [m] && m.chat == s.chats[0].id
    ensures var r := DeleteGroupChat(s, 1, s.chats[0].id);
            r.Ok? && r.value.store.messages == []
  {
    var id := s.chats[0].id;
    SoleGroup(s);
    var t := DeleteGroupChat(s, 1, id).value.store;
    assert forall k :: 0 <= k < |t.messages| ==> t.messages[k] in t.messages;
  }

  /** The same deletion requests removal of exactly the message's attachments. */
  lemma TripDeleteFiles(s: Store, m: Message)
    requires OneGroupOf(s, {1, 2})
    requires s.messages == [m] && m.chat == s.chats[0].id
    ensures var r := DeleteGroupChat(s, 1, s.chats[0].id);
            r.Ok? && r.value.unlinked == LocalPaths(m.attachments)
  {
    var id := s.chats[0].id;
    SoleGroup(s);
    assert MessagesOf([m], id) == [m];
    assert AttachmentsOf([m]) == m.attachments;
  }

  /** Deleting the group tells user 2 once. */
  lemma TripDeleteNotifies(s: Store)
    requires OneGroupOf(s, {1, 2}) && UniqueUserIds(s.users)
    ensures var r := DeleteGroupChat(s, 1, s.chats[0].id);
            r.Ok? && EventsTo(r.value.outbox, 2) == 1
  {
    var id := s.chats[0].id;
    SoleGroup(s);
    OneGroupMembers(s, {1, 2});
    assert 2 in Elements(Group(s, id).value.participants) * UserIds(s.users) - {1};
    DeleteGroupNotifiesOnce(s, 1, id);
  }

  /** The whole session, in any store where users 1, 2 and 3 are registered and
      no chat exists yet (`Trio()` is one): create, rename, remove a member,
      delete. */
  lemma TripScenario(s: Store, invited: seq<UserId>)
    requires UserIds(s.users) == {1, 2, 3} && UniqueUserIds(s.users) && s.chats == []
    requires invited == [2, 3]
    ensures var r1 := CreateAGroupChat(s, 1, "Trip", invited, 100);
            && r1.Ok?
            && var id := r1.value.store.chats[0].id;
            && var r2 := RenameGroupChat(r1.value.store, 1, id, "Trip 2024");
            && r2.Ok?
            && var r3 := RemoveParticipantFromGroupChat(r2.value.store, 1, id, 3);
            && r3.Ok?
            && var r4 := DeleteGroupChat(r3.value.store.(messages := [Posted(id)]), 1, id);
            && r4.Ok?
            && r4.value.store.chats == []
            && r4.value.unlinked == ["public/images/map.png"]
  {
    TripCreate(s, invited);
    var r1 := CreateAGroupChat(s, 1, "Trip", invited, 100);
    TripRename(r1.value.store);
    var r2 := RenameGroupChat(r1.value.store, 1, r1.value.store.chats[0].id, "Trip 2024");
    TripRemove(r2.value.store);
    var r3 := RemoveParticipantFromGroupChat(r2.value.store, 1, r2.value.store.chats[0].id, 3);
    TripDelete(r3.value.store);
  }
}

=== FILE: errors.dfy ===
/** The errors the chat controller throws, one constructor per distinct `ApiError`,
    with the HTTP status code the controller attaches to it. */
module Errors {

  datatype ApiError =
    | ReceiverNotFound        // "Receiver does not exist"
    | SelfChat                // "You cannot chat with yourself"
    | CreatorInParticipants   // "Participants array should not contain the group creator"
    | TooFewMembers           // "Seems like you have passed duplicate participants."
    | GroupChatNotFound       // "Group chat does not exist"
    | ChatNotFound            // "Chat does not exist"
    | NotAdmin                // "You are not an admin" / "Only admin can delete the group"
    | AlreadyMember           // "Participant already in a group chat"
    | NotMember               // "You are not a part of this group chat" / "Participant does not exist in the group chat"

  /** The status code each error is thrown with: 404 for anything looked up and
      not found, and also for a failed admin check (not 403); 409 for a
      participant added twice; 400 for every other malformed request. */
  function StatusCode(e: ApiError): (r: nat)
    ensures r == 404 <==> e.ReceiverNotFound? || e.GroupChatNotFound? || e.ChatNotFound? || e.NotAdmin?
    ensures r == 409 <==> e.AlreadyMember?
    ensures r == 400 <==> e.SelfChat? || e.CreatorInParticipants? || e.TooFewMembers? || e.NotMember?
  {
    match e
    case ReceiverNotFound => 404
    case SelfChat => 400
    case CreatorInParticipants => 400
    case TooFewMembers => 400
    case GroupChatNotFound => 404
    case ChatNotFound => 404
    case NotAdmin => 404
    case AlreadyMember => 409
    case NotMember => 400
  }
}

=== FILE: events.dfy ===
/** The socket events the controller emits, reduced to an outbox: each entry
    names the user whose room receives it, the event kind and the hydrated chat
    it carries. Delivery itself is not modelled. */
module Events {
  import opened Wrappers
  import opened Models
  import opened Hydration

  datatype EventKind = NewChat | UpdateGroupName | LeaveChat

  datatype Event = Event(to: UserId, kind: EventKind, payload: ChatView)

  /** Everyone an outbox addresses. */
  function Recipients(outbox: seq<Event>): set<UserId>
  {
    set e | e in outbox :: e.to
  }

  /** How many events of an outbox go to this user. */
  function EventsTo(outbox: seq<Event>, id: UserId): nat
  {
    if |outbox| == 0 then 0
    else if outbox[0].to == id then 1 + EventsTo(outbox[1..], id)
    else EventsTo(outbox[1..], id)
  }

  /** `payload.participants.forEach(p => emitSocketEvent(p._id, kind, payload))`,
      skipping the participant whose id is `skip`, if one is given. */
  function FanOut(ps: seq<PublicUser>, skip: Option<UserId>, kind: EventKind, payload: ChatView): (r: seq<Event>)
    ensures forall e :: e in r ==> e.kind == kind && e.payload == payload
    ensures Recipients(r) == ViewIds(ps) - (if skip.Some? then {skip.value} else {})
    ensures forall id: UserId :: EventsTo(r, id) == if skip == Some(id) then 0 else Occurrences(ps, id)
  {
    if |ps| == 0 then []
    else
      var rest := FanOut(ps[1..], skip, kind, payload);
      assert ViewIds(ps) == {ps[0].id} + ViewIds(ps[1..]) by {
        assert ps == [ps[0]] + ps[1..];
      }
      var head := if skip == Some(ps[0].id) then [] else [Event(ps[0].id, kind, payload)];
      assert Recipients(head + rest) == Recipients(head) + Recipients(rest);
      if head == [] then
        assert head + rest == rest;
        rest
      else
        var r := head + rest;
        assert r[1..] == rest;
        r
  }
}

=== FILE: hydration.dfy ===
/** The read-side projection every chat goes through before it reaches a client
    (`chatCommonAggregation`): participants are joined from the users collection
    with the secret fields projected away, and the last message is joined with a
    sender reduced to username, avatar and email. */
module Hydration {
  import opened Wrappers
  import opened Sequences
  import opened Models

  /** A participant as a client sees it: a user without password, refresh token,
      or password-reset and email-verification tokens and expiries. */
  datatype PublicUser = PublicUser(
    id: UserId,
    avatar: LocalFile,
    username: string,
    email: string,
    role: string,
    loginType: string,
    isEmailVerified: bool)

  /** `{avatar: 1, username: 1, email: 1}`: the contact card of a user (the id is
      kept, as an inclusion projection keeps `_id`). */
  datatype Summary = Summary(id: UserId, avatar: LocalFile, username: string, email: string)

  /** The last message of a chat, its sender replaced by a contact card, or
      absent when the sender no longer exists. */
  datatype MessageView = MessageView(
    id: MessageId,
    chat: ChatId,
    sender: Option<Summary>,
    content: string,
    attachments: seq<LocalFile>)

  /** A hydrated chat, the only shape in which a chat leaves the controller. */
  datatype ChatView = ChatView(
    id: ChatId,
    name: string,
    isGroupChat: bool,
    participants: seq<PublicUser>,
    admin: UserId,
    lastMessage: Option<MessageView>,
    updatedAt: int)

  /** The `$project` that removes the six secret fields. */
  function Public(u: User): PublicUser
  {
    PublicUser(u.id, u.avatar, u.username, u.email, u.role, u.loginType, u.isEmailVerified)
  }

  /** The `$project` that keeps only username, avatar and email. */
  function Summarize(u: User): Summary
  {
    Summary(u.id, u.avatar, u.username, u.email)
  }

  /** The ids of the participants a view shows. */
  function ViewIds(ps: seq<PublicUser>): set<UserId>
  {
    set p | p in ps :: p.id
  }

  /** The participants `$lookup`: every user whose id occurs in `ids`, once each,
      in the order of the users collection. Ids of missing users are dropped. */
  function ParticipantsOf(users: seq<User>, ids: seq<UserId>): (r: seq<PublicUser>)
    ensures forall p :: p in r ==> p.id in ids && exists u :: u in users && p == Public(u)
    ensures forall u :: u in users && u.id in ids ==> Public(u) in r
  {
    if |users| == 0 then []
    else
      var rest := ParticipantsOf(users[1..], ids);
      assert forall u :: u in users ==> u == users[0] || u in users[1..];
      (if users[0].id in ids then [Public(users[0])] else []) + rest
  }

  /** A hydrated chat shows exactly the participants that are registered users. */
  lemma ParticipantIds(users: seq<User>, ids: seq<UserId>)
    ensures ViewIds(ParticipantsOf(users, ids)) == Elements(ids) * UserIds(users)
  {
    var r := ParticipantsOf(users, ids);
    forall id | id in Elements(ids) * UserIds(users)
      ensures id in ViewIds(r)
    {
      var u :| u in users && u.id == id;
      assert Public(u) in r;
    }
  }

  /** How many of the shown participants carry this id. */
  function Occurrences(ps: seq<PublicUser>, id: UserId): nat
  {
    if |ps| == 0 then 0
    else if ps[0].id == id then 1 + Occurrences(ps[1..], id)
    else Occurrences(ps[1..], id)
  }

  /** With unique user ids, the participants `$lookup` shows each listed,
      registered user exactly once, however often the chat lists the id. */
  lemma {:induction false} ParticipantsOnce(users: seq<User>, ids: seq<UserId>, id: UserId)
    requires UniqueUserIds(users)
    ensures Occurrences(ParticipantsOf(users, ids), id) == if id in ids && id in UserIds(users) then 1 else 0
    decreases |users|
  {
    if |users| > 0 {
      var rest := ParticipantsOf(users[1..], ids);
      UniqueTail(users);
      ParticipantsOnce(users[1..], ids, id);
      UserIdsCons(users);
      if users[0].id in ids {
        var r := [Public(users[0])] + rest;
        assert r[1..] == rest;
        assert ParticipantsOf(users, ids) == r;
      } else {
        assert ParticipantsOf(users, ids) == rest;
      }
    }
  }

  /** The ids of a non-empty users collection are the first user's and the rest's,
      and with unique ids the first is not among the rest. */
  lemma UserIdsCons(users: seq<User>)
    requires |users| > 0
    ensures UserIds(users) == {users[0].id} + UserIds(users[1..])
    ensures UniqueUserIds(users) ==> users[0].id !in UserIds(users[1..])
  {
    assert forall u :: u in users <==> u == users[0] || u in users[1..];
    if UniqueUserIds(users) {
      forall u | u in users[1..] ensures u.id != users[0].id {
        var k :| 0 <= k < |users[1..]| && users[1..][k] == u;
        assert users[k + 1] == u;
      }
    }
  }

  lemma UniqueTail(users: seq<User>)
    requires |users| > 0 && UniqueUserIds(users)
    ensures UniqueUserIds(users[1..])
  {
    forall i, j | 0 <= i < j < |users| - 1 ensures users[1..][i].id != users[1..][j].id {
      assert users[1..][i] == users[i + 1] && users[1..][j] == users[j + 1];
    }
  }

  /** Every registered participant of a hydrated chat appears exactly once. */
  lemma HydratedOnce(s: Store, c: Chat)
    ensures UniqueUserIds(s.users) ==>
              forall id :: Occurrences(ParticipantsOf(s.users, c.participants), id) ==
                           if id in Elements(c.participants) * UserIds(s.users) then 1 else 0
  {
    if UniqueUserIds(s.users) {
      forall id ensures Occurrences(ParticipantsOf(s.users, c.participants), id) ==
                        if id in Elements(c.participants) * UserIds(s.users) then 1 else 0 {
        ParticipantsOnce(s.users, c.participants, id);
      }
    }
  }

  /** The sender join of the last message. */
  function SenderOf(users: seq<User>, id: UserId): (r: Option<Summary>)
    ensures r.Some? <==> id in UserIds(users)
    ensures r.Some? ==> exists u :: u in users && u.id == id && r.value == Summarize(u)
  {
    match FindUser(users, id)
    case None => None
    case Some(u) => Some(Summarize(u))
  }

  /** The `lastMessage` join, `$first` of an empty match being absent. */
  function LastMessageOf(s: Store, last: Option<MessageId>): (r: Option<MessageView>)
    ensures r.Some? ==> last == Some(r.value.id)
    ensures r.Some? ==> exists m :: && m in s.messages
                                    && m.id == r.value.id
                                    && r.value.chat == m.chat
                                    && r.value.content == m.content
                                    && r.value.attachments == m.attachments
                                    && r.value.sender == SenderOf(s.users, m.sender)
    ensures r.None? <==> last.None? || forall m :: m in s.messages ==> m.id != last.value
  {
    match last
    case None => None
    case Some(mid) =>
      match FindMessage(s.messages, mid)
      case None => None
      case Some(m) => Some(MessageView(m.id, m.chat, SenderOf(s.users, m.sender), m.content, m.attachments))
  }

  /** `chatCommonAggregation` applied to one chat. */
  function Hydrate(s: Store, c: Chat): (v: ChatView)
    ensures ViewIds(v.participants) == Elements(c.participants) * UserIds(s.users)
    ensures forall p :: p in v.participants ==> exists u :: u in s.users && p == Public(u)
    ensures v.id == c.id && v.name == c.name && v.isGroupChat == c.isGroupChat
    ensures v.admin == c.admin && v.updatedAt == c.updatedAt
    ensures v.lastMessage.Some? ==> c.lastMessage == Some(v.lastMessage.value.id)
    ensures v.lastMessage.None? <==> c.lastMessage.None? || forall m :: m in s.messages ==> m.id != c.lastMessage.value
  {
    ParticipantIds(s.users, c.participants);
    ChatView(c.id, c.name, c.isGroupChat, ParticipantsOf(s.users, c.participants), c.admin,
             LastMessageOf(s, c.lastMessage), c.updatedAt)
  }

  /** Two users that differ at most in their secret fields. */
  predicate SameExceptSecrets(u: User, w: User)
  {
    && u.id == w.id
    && u.avatar == w.avatar
    && u.username == w.username
    && u.email == w.email
    && u.role == w.role
    && u.loginType == w.loginType
    && u.isEmailVerified == w.isEmailVerified
  }

  /** Two users collections that differ at most in secret fields. */
  predicate SecretsOnlyDiffer(a: seq<User>, b: seq<User>)
  {
    |a| == |b| && forall i :: 0 <= i < |a| ==> SameExceptSecrets(a[i], b[i])
  }

  lemma {:induction false} ParticipantsIgnoreSecrets(a: seq<User>, b: seq<User>, ids: seq<UserId>)
    requires SecretsOnlyDiffer(a, b)
    ensures ParticipantsOf(a, ids) == ParticipantsOf(b, ids)
    decreases |a|
  {
    if |a| > 0 {
      ParticipantsIgnoreSecrets(a[1..], b[1..], ids);
    }
  }

  lemma SenderIgnoresSecrets(a: seq<User>, b: seq<User>, id: UserId)
    requires SecretsOnlyDiffer(a, b)
    ensures SenderOf(a, id) == SenderOf(b, id)
  {
    var p := (u: User) => u.id == id;
    assert forall k :: 0 <= k < |a| ==> p(a[k]) == p(b[k]);
    SameFirstIndex(a, b, p, p);
  }

  /** Hydration cannot leak a secret: changing only the secret fields of any
      users leaves every hydrated chat unchanged. */
  lemma HydrateIgnoresSecrets(s: Store, t: Store, c: Chat)
    requires SecretsOnlyDiffer(s.users, t.users)
    requires s.messages == t.messages
    ensures Hydrate(s, c) == Hydrate(t, c)
  {
    ParticipantsIgnoreSecrets(s.users, t.users, c.participants);
    match c.lastMessage {
      case None =>
      case Some(mid) =>
        match FindMessage(s.messages, mid) {
          case None =>
          case Some(m) => SenderIgnoresSecrets(s.users, t.users, m.sender);
        }
    }
  }
}

=== FILE: models.dfy ===
/** The documents the chat controller reads and writes, and the queries it uses to
    find them. A store holds each collection as a sequence in collection order;
    a query returns the first document it matches. */
module Models {
  import opened Wrappers
  import opened Sequences

  type UserId = nat
  type ChatId = nat
  type MessageId = nat
  type Path = string

  /** A stored file, `{url, localPath}`: a user's avatar or a message attachment. */
  datatype LocalFile = LocalFile(url: string, localPath: Path)

  /** A user document, including the secret fields hydration must never expose. */
  datatype User = User(
    id: UserId,
    avatar: LocalFile,
    username: string,
    email: string,
    role: string,
    password: string,
    loginType: string,
    isEmailVerified: bool,
    refreshToken: Option<string>,
    forgotPasswordToken: Option<string>,
    forgotPasswordExpiry: Option<int>,
    emailVerificationToken: Option<string>,
    emailVerificationExpiry: Option<int>)

  /** A chat document. `participants` is an array of user ids that may, in
      principle, hold ids of users that do not exist. */
  datatype Chat = Chat(
    id: ChatId,
    name: string,
    isGroupChat: bool,
    participants: seq<UserId>,
    admin: UserId,
    lastMessage: Option<MessageId>,
    updatedAt: int)

  /** A chat message with its ordered attachments. */
  datatype Message = Message(
    id: MessageId,
    chat: ChatId,
    sender: UserId,
    content: string,
    attachments: seq<LocalFile>)

  /** The three collections the controller touches. */
  datatype Store = Store(users: seq<User>, chats: seq<Chat>, messages: seq<Message>)

  /** The name every one-on-one chat is created with. */
  const OneOnOneChatName: string := "One on one chat"

  /** The ids of all registered users. */
  function UserIds(users: seq<User>): set<UserId>
  {
    set u | u in users :: u.id
  }

  /** The ids of all chats in the store. */
  function ChatIds(chats: seq<Chat>): set<ChatId>
  {
    set c | c in chats :: c.id
  }

  /** MongoDB's unique `_id` index on the users collection: no two users share an id. */
  predicate UniqueUserIds(users: seq<User>)
  {
    forall i, j :: 0 <= i < j < |users| ==> users[i].id != users[j].id
  }

  /** `User.findById`. */
  function FindUser(users: seq<User>, id: UserId): (r: Option<User>)
    ensures r.Some? ==> r.value in users && r.value.id == id
    ensures r.None? <==> id !in UserIds(users)
  {
    match FirstIndex(users, (u: User) => u.id == id)
    case None => None
    case Some(i) => Some(users[i])
  }

  /** Looking up a message by `_id`, as the `lastMessage` join does. */
  function FindMessage(messages: seq<Message>, id: MessageId): (r: Option<Message>)
    ensures r.Some? ==> r.value in messages && r.value.id == id
    ensures r.None? <==> forall m :: m in messages ==> m.id != id
  {
    match FirstIndex(messages, (m: Message) => m.id == id)
    case None => None
    case Some(i) => Some(messages[i])
  }

  /** `{_id: chatId}`: the chat with this id, group or not. */
  function FindChat(chats: seq<Chat>, id: ChatId): Option<nat>
  {
    FirstIndex(chats, (c: Chat) => c.id == id)
  }

  /** `{_id: chatId, isGroupChat: true}`: the group chat with this id. */
  function FindGroup(chats: seq<Chat>, id: ChatId): Option<nat>
  {
    FirstIndex(chats, (c: Chat) => c.id == id && c.isGroupChat)
  }

  /** The one-on-one lookup's `$match`: a non-group chat whose participants
      contain both users. */
  predicate Connects(c: Chat, a: UserId, b: UserId)
  {
    !c.isGroupChat && a in c.participants && b in c.participants
  }

  /** The first one-on-one chat between `a` and `b`. */
  function FindPair(chats: seq<Chat>, a: UserId, b: UserId): Option<nat>
  {
    FirstIndex(chats, (c: Chat) => Connects(c, a, b))
  }

  /** The id a newly created chat receives: one no chat in the store carries. */
  function NextChatId(chats: seq<Chat>): (r: ChatId)
    ensures forall c :: c in chats ==> c.id < r
  {
    if |chats| == 0 then 0
    else
      var rest := NextChatId(chats[1..]);
      assert forall c :: c in chats ==> c == chats[0] || c in chats[1..];
      if chats[0].id + 1 > rest then chats[0].id + 1 else rest
  }

  /** The messages posted in one chat, in order. */
  function MessagesOf(messages: seq<Message>, chat: ChatId): seq<Message>
  {
    Filter(messages, (m: Message) => m.chat == chat)
  }
}

=== FILE: recency.dfy ===
/** `{$sort: {updatedAt: -1}}`: chats ordered most recently updated first. The
    order among chats with equal `updatedAt` is not specified by the store, so
    only the ordering and the permutation are promised. */
module Recency {
  import opened Models

  /** Non-increasing `updatedAt`. */
  predicate NewestFirst(cs: seq<Chat>)
  {
    forall i, j :: 0 <= i < j < |cs| ==> cs[i].updatedAt >= cs[j].updatedAt
  }

  function Insert(c: Chat, cs: seq<Chat>): (r: seq<Chat>)
    requires NewestFirst(cs)
    ensures NewestFirst(r)
    ensures multiset(r) == multiset(cs) + multiset{c}
    ensures |r| == |cs| + 1
    ensures r[0] == c || (|cs| > 0 && r[0] == cs[0])
  {
    if |cs| == 0 then [c]
    else if c.updatedAt >= cs[0].updatedAt then [c] + cs
    else
      var rest := Insert(c, cs[1..]);
      assert cs == [cs[0]] + cs[1..];
      assert cs[0].updatedAt >= rest[0].updatedAt;
      [cs[0]] + rest
  }

  /** Insertion sort by recency. */
  function SortByRecency(cs: seq<Chat>): (r: seq<Chat>)
    ensures NewestFirst(r)
    ensures multiset(r) == multiset(cs)
  {
    if |cs| == 0 then []
    else
      assert cs == [cs[0]] + cs[1..];
      Insert(cs[0], SortByRecency(cs[1..]))
  }
}

=== FILE: sequences.dfy ===
/** Sequence operations the controller relies on: the first document a query
    matches, a query's filter, de-duplication through a `Set`, and MongoDB's
    `$pull` of every occurrence of a value from an array. */
module Sequences {
  import opened Wrappers

  /** The set of elements of a sequence. */
  function Elements<T>(xs: seq<T>): set<T>
  {
    set x | x in xs
  }

  /** No element occurs twice. */
  predicate NoDup<T(==)>(xs: seq<T>)
  {
    forall i, j :: 0 <= i < j < |xs| ==> xs[i] != xs[j]
  }

  /** The index of the first element satisfying `p`, as `findOne` and `[0]` of an
      aggregation return the first matching document in collection order. */
  function FirstIndex<T>(xs: seq<T>, p: T -> bool): (r: Option<nat>)
    ensures r.Some? ==> r.value < |xs| && p(xs[r.value])
    ensures r.Some? ==> forall k :: 0 <= k < r.value ==> !p(xs[k])
    ensures r.None? <==> forall k :: 0 <= k < |xs| ==> !p(xs[k])
  {
    if |xs| == 0 then None
    else if p(xs[0]) then Some(0)
    else
      match FirstIndex(xs[1..], p)
      case None => None
      case Some(i) => Some(i + 1)
  }

  /** Two sequences on which `p` answers alike at every position have the same
      first match. */
  lemma SameFirstIndex<T, U>(xs: seq<T>, ys: seq<U>, p: T -> bool, q: U -> bool)
    requires |xs| == |ys|
    requires forall k :: 0 <= k < |xs| ==> p(xs[k]) == q(ys[k])
    ensures FirstIndex(xs, p) == FirstIndex(ys, q)
  {
  }

  /** The elements satisfying `p`, in their original order. */
  function Filter<T(!new)>(xs: seq<T>, p: T -> bool): (r: seq<T>)
    ensures |r| <= |xs|
    ensures forall x :: x in r <==> x in xs && p(x)
  {
    if |xs| == 0 then []
    else (if p(xs[0]) then [xs[0]] else []) + Filter(xs[1..], p)
  }

  lemma {:induction false} FilterConcat<T(!new)>(a: seq<T>, b: seq<T>, p: T -> bool)
    ensures Filter(a + b, p) == Filter(a, p) + Filter(b, p)
    decreases |a|
  {
    if |a| == 0 {
      assert a + b == b;
    } else {
      assert (a + b)[0] == a[0];
      assert (a + b)[1..] == a[1..] + b;
      FilterConcat(a[1..], b, p);
    }
  }

  /** Filtering keeps everything when every element passes. */
  lemma {:induction false} FilterKeepsAll<T(!new)>(xs: seq<T>, p: T -> bool)
    requires forall k :: 0 <= k < |xs| ==> p(xs[k])
    ensures Filter(xs, p) == xs
    decreases |xs|
  {
    if |xs| > 0 {
      FilterKeepsAll(xs[1..], p);
    }
  }

  /** Filtering keeps nothing when no element passes. */
  lemma {:induction false} FilterKeepsNone<T(!new)>(xs: seq<T>, p: T -> bool)
    requires forall k :: 0 <= k < |xs| ==> !p(xs[k])
    ensures Filter(xs, p) == []
    decreases |xs|
  {
    if |xs| > 0 {
      FilterKeepsNone(xs[1..], p);
    }
  }

  /** A second, narrower filter over a filtered sequence sees the same elements
      as that narrower filter over the original. */
  lemma {:induction false} FilterOfFilter<T(!new)>(xs: seq<T>, p: T -> bool, q: T -> bool)
    requires forall x :: q(x) ==> p(x)
    ensures Filter(Filter(xs, p), q) == Filter(xs, q)
    decreases |xs|
  {
    if |xs| > 0 {
      var head := if p(xs[0]) then [xs[0]] else [];
      FilterConcat(head, Filter(xs[1..], p), q);
      FilterOfFilter(xs[1..], p, q);
    }
  }

  /** Filtering keeps every copy of a passing element and no copy of a failing one. */
  lemma {:induction false} FilterMultiset<T(!new)>(xs: seq<T>, p: T -> bool, y: T)
    ensures multiset(Filter(xs, p))[y] == if p(y) then multiset(xs)[y] else 0
    decreases |xs|
  {
    if |xs| > 0 {
      FilterMultiset(xs[1..], p, y);
      assert xs == [xs[0]] + xs[1..];
    }
  }

  /** What a filter keeps and what its negation keeps together make up the
      whole sequence, as a multiset. */
  lemma FilterPartition<T(!new)>(xs: seq<T>, p: T -> bool)
    ensures multiset(Filter(xs, p)) + multiset(Filter(xs, (x: T) => !p(x))) == multiset(xs)
  {
    forall y
      ensures (multiset(Filter(xs, p)) + multiset(Filter(xs, (x: T) => !p(x))))[y] == multiset(xs)[y]
    {
      FilterMultiset(xs, p, y);
      FilterMultiset(xs, (x: T) => !p(x), y);
    }
  }

  /** MongoDB's `$pull`: every occurrence of `x` removed, the rest in order. */
  function Pull<T(==,!new)>(xs: seq<T>, x: T): (r: seq<T>)
    ensures x !in r
    ensures forall y :: y != x ==> multiset(r)[y] == multiset(xs)[y]
    ensures forall y :: y in r <==> y in xs && y != x
  {
    var r := Filter(xs, y => y != x);
    forall y | y != x
      ensures multiset(r)[y] == multiset(xs)[y]
    {
      FilterMultiset(xs, y => y != x, y);
    }
    r
  }

  /** `$pull` removes exactly the pulled value from the set of values. */
  lemma PullElements<T(!new)>(xs: seq<T>, x: T)
    ensures Elements(Pull(xs, x)) == Elements(xs) - {x}
  {
  }

  /** Pulling a value that was just pushed undoes the push. */
  lemma PullUndoesPush<T(!new)>(xs: seq<T>, x: T)
    requires x !in xs
    ensures Pull(xs + [x], x) == xs
  {
    FilterConcat(xs, [x], y => y != x);
    FilterKeepsAll(xs, y => y != x);
    assert Filter([x], y => y != x) == [];
  }

  /** `$pull` works element by element: the survivors keep their relative order. */
  lemma PullConcat<T(!new)>(a: seq<T>, b: seq<T>, x: T)
    ensures Pull(a + b, x) == Pull(a, x) + Pull(b, x)
  {
    FilterConcat(a, b, y => y != x);
  }

  /** Filtering a sequence without duplicates leaves none. */
  lemma {:induction false} FilterNoDup<T(!new)>(xs: seq<T>, p: T -> bool)
    requires NoDup(xs)
    ensures NoDup(Filter(xs, p))
    decreases |xs|
  {
    if |xs| > 0 {
      assert NoDup(xs[1..]);
      FilterNoDup(xs[1..], p);
      assert xs[0] !in xs[1..];
    }
  }

  /** `$pull` never introduces a duplicate. */
  lemma PullNoDup<T(!new)>(xs: seq<T>, x: T)
    requires NoDup(xs)
    ensures NoDup(Pull(xs, x))
  {
    FilterNoDup(xs, y => y != x);
  }

  /** Pushing a value not yet present keeps a sequence free of duplicates. */
  lemma PushNoDup<T>(xs: seq<T>, x: T)
    requires NoDup(xs) && x !in xs
    ensures NoDup(xs + [x])
  {
  }

  /** Pulling an absent value changes nothing. */
  lemma PullAbsent<T(!new)>(xs: seq<T>, x: T)
    requires x !in xs
    ensures Pull(xs, x) == xs
  {
    FilterKeepsAll(xs, y => y != x);
  }

  /** Of any two elements of `r`, the earlier one occurs in `xs` before the
      first occurrence of the later one. */
  ghost predicate FirstSeenOrder<T>(r: seq<T>, xs: seq<T>)
  {
    forall i, j :: 0 <= i < j < |r| ==> SeenBefore(xs, r[i], r[j])
  }

  /** `a` occurs in `xs` before any occurrence of `b`. */
  ghost predicate SeenBefore<T>(xs: seq<T>, a: T, b: T)
  {
    exists k :: 0 <= k < |xs| && xs[k] == a && b !in xs[..k + 1]
  }

  /** One step of `Dedup`: appending to `xs` keeps the order of what was kept,
      and an element never seen before goes after all of it. */
  lemma FirstSeenOrderStep<T>(init: seq<T>, front: seq<T>, x: T, r: seq<T>)
    requires FirstSeenOrder(init, front)
    requires forall y :: y in init ==> y in front
    requires r == init || (r == init + [x] && x !in front)
    ensures FirstSeenOrder(r, front + [x])
  {
    var xs := front + [x];
    forall i, j | 0 <= i < j < |r|
      ensures SeenBefore(xs, r[i], r[j])
    {
      if j < |init| {
        assert r[i] == init[i] && r[j] == init[j];
        assert SeenBefore(front, init[i], init[j]);
        var k :| 0 <= k < |front| && front[k] == init[i] && init[j] !in front[..k + 1];
        assert xs[..k + 1] == front[..k + 1];
        assert xs[k] == r[i];
      } else {
        assert r[i] == init[i] && init[i] in init;
        var k :| 0 <= k < |front| && front[k] == r[i];
        assert xs[..k + 1] == front[..k + 1];
        assert xs[k] == r[i];
        assert r[j] == x && x !in front[..k + 1] by {
          assert forall y :: y in front[..k + 1] ==> y in front;
        }
      }
    }
  }

  /** `[...new Set(xs)]`: the first occurrence of every element, in order. */
  function Dedup<T(==,!new)>(xs: seq<T>): (r: seq<T>)
    ensures NoDup(r)
    ensures forall x :: x in r <==> x in xs
    ensures FirstSeenOrder(r, xs)
    decreases |xs|
  {
    if |xs| == 0 then []
    else
      var front := xs[..|xs| - 1];
      var x := xs[|xs| - 1];
      var init := Dedup(front);
      assert xs == front + [x];
      var r := if x in init then init else init + [x];
      FirstSeenOrderStep(init, front, x, r);
      r
  }

  /** A new element ends up last in the de-duplicated sequence. */
  lemma DedupAppendFresh<T(!new)>(xs: seq<T>, x: T)
    requires x !in xs
    ensures Dedup(xs + [x]) == Dedup(xs) + [x]
  {
    assert (xs + [x])[..|xs + [x]| - 1] == xs;
  }

  /** A sequence without duplicates has as many elements as its set. */
  lemma {:induction false} DistinctCount<T>(xs: seq<T>)
    requires NoDup(xs)
    ensures |Elements(xs)| == |xs|
    decreases |xs|
  {
    if |xs| > 0 {
      var rest := xs[1..];
      assert NoDup(rest);
      DistinctCount(rest);
      assert xs[0] !in rest;
      assert Elements(xs) == {xs[0]} + Elements(rest) by {
        assert xs == [xs[0]] + rest;
      }
    }
  }

  /** The de-duplicated sequence has exactly one entry per distinct element. */
  lemma DedupCount<T(!new)>(xs: seq<T>)
    ensures |Dedup(xs)| == |Elements(xs)|
  {
    DistinctCount(Dedup(xs));
    assert Elements(Dedup(xs)) == Elements(xs);
  }
}

=== FILE: store_invariants.dfy ===
/** Structural invariants of the chats collection that the handlers keep:
    chat ids are unique, no chat lists a participant twice, a one-on-one
    chat joins two distinct users, and no two one-on-one chats join the
    same pair. The last holds only because creation looks the pair up
    first; nothing in the store enforces it. */
module StoreInvariants {
  import opened Wrappers
  import opened Sequences
  import opened Models
  import opened ChatControllers

  ghost predicate UniqueChatIds(cs: seq<Chat>)
  {
    forall i, j :: 0 <= i < j < |cs| ==> cs[i].id != cs[j].id
  }

  /** A one-on-one chat has exactly two distinct participants. */
  predicate PairShaped(c: Chat)
  {
    !c.isGroupChat ==> |c.participants| == 2 && c.participants[0] != c.participants[1]
  }

  /** No later one-on-one chat joins the pair of an earlier one. */
  ghost predicate OneChatPerPair(cs: seq<Chat>)
  {
    forall i, j :: 0 <= i < j < |cs| && !cs[i].isGroupChat && PairShaped(cs[i]) ==>
      !Connects(cs[j], cs[i].participants[0], cs[i].participants[1])
  }

  ghost predicate ChatsInv(cs: seq<Chat>)
  {
    && UniqueChatIds(cs)
    && (forall k :: 0 <= k < |cs| ==> NoDup(cs[k].participants))
    && (forall k :: 0 <= k < |cs| ==> PairShaped(cs[k]))
    && OneChatPerPair(cs)
  }

  ghost predicate Inv(s: Store)
  {
    ChatsInv(s.chats)
  }

  /** Under the invariant, at most one chat answers the one-on-one lookup of a
      pair of distinct users. */
  lemma AtMostOneChatPerPair(cs: seq<Chat>, a: UserId, b: UserId, i: nat, j: nat)
    requires ChatsInv(cs)
    requires a != b
    requires i < |cs| && j < |cs|
    requires Connects(cs[i], a, b) && Connects(cs[j], a, b)
    ensures i == j
  {
  }

  /** Under the invariant, no chat carries the id of a deleted one. */
  lemma RemovedIdIsGone(cs: seq<Chat>, i: nat)
    requires UniqueChatIds(cs)
    requires i < |cs|
    ensures cs[i].id !in ChatIds(cs[..i] + cs[i + 1..])
  {
  }

  lemma InvAppend(cs: seq<Chat>, c: Chat)
    requires ChatsInv(cs)
    requires c.id !in ChatIds(cs)
    requires NoDup(c.participants)
    requires PairShaped(c)
    requires !c.isGroupChat ==> forall k :: 0 <= k < |cs| ==> !Connects(cs[k], c.participants[0], c.participants[1])
    ensures ChatsInv(cs + [c])
  {
    var ds := cs + [c];
    forall i, j | 0 <= i < j < |ds|
      ensures ds[i].id != ds[j].id
    {
      if j == |cs| {
        assert ds[i] in cs;
      }
    }
    forall i, j | 0 <= i < j < |ds| && !ds[i].isGroupChat && PairShaped(ds[i])
      ensures !Connects(ds[j], ds[i].participants[0], ds[i].participants[1])
    {
      if j == |cs| {
        assert ds[i] == cs[i];
      }
    }
  }

  lemma InvReplaceGroup(cs: seq<Chat>, i: nat, c: Chat)
    requires ChatsInv(cs)
    requires i < |cs| && cs[i].isGroupChat
    requires c.isGroupChat && c.id == cs[i].id
    requires NoDup(c.participants)
    ensures ChatsInv(cs[i := c])
  {
  }

  lemma InvRemove(cs: seq<Chat>, i: nat)
    requires ChatsInv(cs)
    requires i < |cs|
    ensures ChatsInv(cs[..i] + cs[i + 1..])
  {
    var ds := cs[..i] + cs[i + 1..];
    assert forall k :: 0 <= k < |ds| ==> ds[k] == cs[if k < i then k else k + 1];
  }

  // ---------------------------------------------------------------------------
  // Every handler keeps the invariant.

  lemma CreateOrGetKeepsInv(s: Store, actor: UserId, receiverId: UserId, now: int)
    requires Inv(s)
    ensures var r := CreateOrGetAOneOnOneChat(s, actor, receiverId, now);
            r.Ok? ==> Inv(r.value.store)
  {
    var r := CreateOrGetAOneOnOneChat(s, actor, receiverId, now);
    if r.Ok? && FindPair(s.chats, actor, receiverId).None? {
      assert r.value == NewPairChat(s, actor, receiverId, now);
      NewPairChatKeepsInv(s, actor, receiverId, now);
    }
  }

  /** Creating the chat of a pair that has none keeps the invariant. */
  lemma NewPairChatKeepsInv(s: Store, actor: UserId, receiverId: UserId, now: int)
    requires Inv(s)
    requires actor != receiverId && FindPair(s.chats, actor, receiverId).None?
    ensures Inv(NewPairChat(s, actor, receiverId, now).store)
  {
    var t := NewPairChat(s, actor, receiverId, now).store;
    var c := t.chats[|s.chats|];
    assert t.chats == s.chats + [c];
    assert c.participants == [actor, receiverId];
    InvAppend(s.chats, c);
  }


  lemma CreateGroupKeepsInv(s: Store, actor: UserId, name: string, participants: seq<UserId>, now: int)
    requires Inv(s)
    ensures var r := CreateAGroupChat(s, actor, name, participants, now);
            r.Ok? ==> Inv(r.value.store)
  {
    var r := CreateAGroupChat(s, actor, name, participants, now);
    if r.Ok? {
      var c := r.value.store.chats[|s.chats|];
      assert r.value.store.chats == s.chats + [c];
      InvAppend(s.chats, c);
    }
  }

  lemma RenameKeepsInv(s: Store, actor: UserId, chatId: ChatId, name: string)
    requires Inv(s)
    ensures var r := RenameGroupChat(s, actor, chatId, name);
            r.Ok? ==> Inv(r.value.store)
  {
    var r := RenameGroupChat(s, actor, chatId, name);
    if r.Ok? {
      var i := FindGroup(s.chats, chatId).value;
      InvReplaceGroup(s.chats, i, r.value.store.chats[i]);
      assert r.value.store.chats == s.chats[i := r.value.store.chats[i]];
    }
  }

  lemma LeaveKeepsInv(s: Store, actor: UserId, chatId: ChatId)
    requires Inv(s)
    ensures var r := LeaveGroupChat(s, actor, chatId);
            r.Ok? ==> Inv(r.value.store)
  {
    var r := LeaveGroupChat(s, actor, chatId);
    if r.Ok? {
      var i := FindGroup(s.chats, chatId).value;
      PullNoDup(s.chats[i].participants, actor);
      InvReplaceGroup(s.chats, i, r.value.store.chats[i]);
      assert r.value.store.chats == s.chats[i := r.value.store.chats[i]];
    }
  }

  lemma AddKeepsInv(s: Store, actor: UserId, chatId: ChatId, target: UserId)
    requires Inv(s)
    ensures var r := AddNewParticipantInGroupChat(s, actor, chatId, target);
            r.Ok? ==> Inv(r.value.store)
  {
    var r := AddNewParticipantInGroupChat(s, actor, chatId, target);
    if r.Ok? {
      var i := FindGroup(s.chats, chatId).value;
      PushNoDup(s.chats[i].participants, target);
      InvReplaceGroup(s.chats, i, r.value.store.chats[i]);
      assert r.value.store.chats == s.chats[i := r.value.store.chats[i]];
    }
  }

  lemma RemoveKeepsInv(s: Store, actor: UserId, chatId: ChatId, target: UserId)
    requires Inv(s)
    ensures var r := RemoveParticipantFromGroupChat(s, actor, chatId, target);
            r.Ok? ==> Inv(r.value.store)
  {
    var r := RemoveParticipantFromGroupChat(s, actor, chatId, target);
    if r.Ok? {
      var i := FindGroup(s.chats, chatId).value;
      PullNoDup(s.chats[i].participants, target);
      InvReplaceGroup(s.chats, i, r.value.store.chats[i]);
      assert r.value.store.chats == s.chats[i := r.value.store.chats[i]];
    }
  }

  lemma DeleteGroupKeepsInv(s: Store, actor: UserId, chatId: ChatId)
    requires Inv(s)
    ensures var r := DeleteGroupChat(s, actor, chatId);
            r.Ok? ==> Inv(r.value.store)
  {
    var r := DeleteGroupChat(s, actor, chatId);
    if r.Ok? {
      InvRemove(s.chats, FindGroup(s.chats, chatId).value);
    }
  }

  lemma DeleteOneOnOneKeepsInv(s: Store, actor: UserId, chatId: ChatId)
    requires Inv(s)
    requires HasOtherParticipant(s, actor, chatId)
    ensures var r := DeleteOneOnOneChat(s, actor, chatId);
            r.Ok? ==> Inv(r.value.store)
  {
    var r := DeleteOneOnOneChat(s, actor, chatId);
    if r.Ok? {
      InvRemove(s.chats, FindChat(s.chats, chatId).value);
    }
  }
}

=== FILE: wrappers.dfy ===
/** Option and Result, the two failure-carrying datatypes the model uses. */
module Wrappers {

  /** A value that may be absent: a document lookup that matched nothing. */
  datatype Option<+T> = None | Some(value: T)

  /** Either the value an operation produced or the error it raised. */
  datatype Result<+T, +E> = Ok(value: T) | Err(error: E)
}
